=== FILE: README.md ===
# Playwright page-object core, modelled in Dafny

This project models the reusable core of a Playwright test-automation suite written in
TypeScript:

- `BasePage`, the page-object base class. It resolves element options against its
  defaults. It waits for elements, guards interactability and clicks with a retry loop.
  It performs the single-attempt actions (double click, right click, hover, select,
  check, scroll) and clears inputs with a keyboard fallback. It describes elements for
  the log, answers dialogs, and manages the pages of its browser context: navigating,
  opening tabs, switching between them and closing them.
- `Logger`, the leveled logger. It has an ordered set of levels, a threshold, a line
  format, test- and page-specific helpers and a single shared instance.
- The CSV writer of `CSVReader`. It builds the header and data lines, with no escaping,
  and writes nothing for empty data.

The browser engine is not modelled. Each call receives what the engine would answer, as
plain values:

- a `World` per click attempt: the element's flags and whether the primitive action succeeds;
- a `ClearWorld` for `clear`, including the values `inputValue()` reads or its failure;
- the time at which a dialog appears;
- a `Landing` per navigation: the title and final URL the page ends up with (after the
  engine resolves the URL against the base URL and follows redirects), and whether it
  loaded or the navigation threw.

An error is an `Outcome` (`Pass`, or `Fail` with a structured error instead of an
exception's text) or a `Result`. The element actions return a `Run`: the engine calls
made, in order, and the `Outcome`. `Retry.Click` also returns its attempt count and
trace, and `Retry.Clear` says whether the keyboard fallback ran. The `Tabs` methods
change the page state, and all but `CloseAllPagesExceptMain` return an `Outcome` or a
`Result`. The visibility queries
return a plain boolean.

The pages of the browser context are a sequence of every page ever created, in creation
order, each with a `closed` flag. A page handle is an index into that sequence. The
context's page list is the handles of the open pages, in order (`Tabs.OpenIn`). The
active page (`this.page`) is a handle and may point at a closed page.

Modules: `Wrappers` (Option/Outcome/Result, `??`, truthiness), `Strings` (includes,
join, split, counting, decimal digits), `Actions` (options, waits, the interactability
guard, the single-attempt actions), `Retry` (`click` and `clear`), `Description`
(element descriptions), `Dialogs`, `Tabs` (class `BasePage` with the page state),
`Loggers` (class `Logger`, class `Registry`), `CsvWriter`.

## Model

| member | source | states |
|---|---|---|
| Actions.Resolve | pages/BasePage.ts:105-110 | Each effective option (timeout, force, delay, retries) is the explicit one when given, otherwise 10000, false, 0 and 3. |
| Actions.ResolveWait | pages/BasePage.ts:50-52 | The wait timeout defaults to 10000 and the wait state to `visible`. |
| Actions.WaitForElement | pages/BasePage.ts:50-59 | The wait passes exactly when the element shows the requested state, and a failure names that state and the timeout. |
| Actions.CheckInteractability | pages/BasePage.ts:66-73 | With `force` the guard makes no query and never fails. Without it, it makes one enabled-query and fails, with the "not interactable" error, exactly when the element is disabled. |
| Actions.RunStage | pages/BasePage.ts:116-124 | One step of an attempt records its engine call, passes exactly when the world allows it, and fails with that step's error. |
| Actions.RunStages | pages/BasePage.ts:116-124 | A sequence of steps passes exactly when every step passes. A passing run makes every planned call in order. A failing run makes a prefix of them. |
| Actions.RunStagesStopsAt | pages/BasePage.ts:116-124 | A run stops at its first failing step: it makes the calls of the steps up to and including that one, in order, and fails with that step's error. |
| Actions.ForceSkipsGuard | pages/BasePage.ts:66-73 | With `force`, no attempt queries enabledness or fails as not interactable, whatever the steps. |
| Actions.RunStagesCons | pages/BasePage.ts:116-124 | Helper lemma for the stage lemmas: running steps is running the first and, only if it passes, the rest. |
| Actions.AttemptOutcome | pages/BasePage.ts:116-124 | A click attempt passes exactly when the element is visible, attached, enabled or forced, and the click succeeds; otherwise it fails with the first failing step's error. |
| Actions.ClickPlanEvents | pages/BasePage.ts:116-124 | A full click attempt waits for visible, waits for attached, queries enabledness unless forced, then clicks with the resolved force, delay and timeout. |
| Actions.AttemptEvents | pages/BasePage.ts:116-124 | A successful attempt waits for visible, waits for attached, queries enabledness unless forced, then clicks with the resolved force, delay and timeout. Every attempt starts with the visible wait and never sleeps. |
| Actions.FourStageEvents | pages/BasePage.ts:153-163 | A full wait-wait-guard-act plan calls: both waits, the enabled-query unless forced, the action. |
| Actions.FourStages | pages/BasePage.ts:153-163 | A wait-wait-guard-act plan passes exactly when both states show, the guard passes and the action succeeds. Otherwise it fails with the first failing step's error. Its calls are those of `FourStageEvents`: four, or three with `force`. |
| Actions.ThreeStageEvents | pages/BasePage.ts:318-326 | A full wait-guard-act plan calls: the wait, the enabled-query unless forced, the action. |
| Actions.ThreeStages | pages/BasePage.ts:318-326 | A wait-guard-act plan passes exactly when the state shows, the guard passes and the action succeeds. Otherwise it fails with the first failing step's error. Its calls are those of `ThreeStageEvents`. |
| Actions.TwoStages | pages/BasePage.ts:664-666 | A wait-act plan passes exactly when the state shows and the action succeeds, and otherwise fails with the first failing step's error. It makes the wait and then, if it passed, the action. |
| Actions.Interact | pages/BasePage.ts:144-381 | Helper for the three operations below: the calls an operation makes are a prefix of its plan's calls, and with `force` none is an enabled-query. |
| Actions.MouseAction | pages/BasePage.ts:144-306 | `doubleClick`, `rightClick` and `hover` pass exactly when the element is visible, attached, enabled or forced, and the action succeeds. A pass makes both waits, the enabled-query unless forced, and the action: the clicks with the resolved force, delay and timeout, the hover with the timeout only. A failure makes a prefix of those calls and is the first failing step's error re-thrown in the operation's context. |
| Actions.FormAction | pages/BasePage.ts:314-381 | `selectOption` (with its values), `selectOptionByText` (with its label) and `setChecked` (with the wanted state) pass exactly when the element is visible, enabled or forced, and the action succeeds; attached is not waited for. Calls and failures as for the mouse actions, without the attached wait. |
| Actions.ScrollElementIntoView | pages/BasePage.ts:658-672 | `scrollIntoView` passes exactly when the element is attached and the scroll succeeds. It waits for attached, then scrolls, and never queries enabledness. A failure is the first failing step's error in the scrolling context. |
| Actions.SecondsToMillis | pages/BasePage.ts:678-681 | `waitForTimeoutInSeconds` sleeps a whole number of seconds: exactly the given number, in milliseconds. |
| Actions.IsElementVisible | pages/BasePage.ts:79-85 | True exactly when the query answers and the element is visible; a query that throws yields false. |
| Actions.IsElementEnabled | pages/BasePage.ts:91-97 | True exactly when the query answers and the element is enabled; a query that throws yields false. |
| Actions.IsVisible | pages/BasePage.ts:433-448 | Never an error: true exactly when the visibility wait passes and the second visibility query answers true. |
| Retry.PausesAppend | pages/BasePage.ts:114-136 | The number of pauses in a concatenation is the sum of the parts' pauses. |
| Retry.NoPauses | pages/BasePage.ts:114-136 | A trace without sleeps has no pauses. |
| Retry.RetryEventsStep | pages/BasePage.ts:114-136 | The trace of k + 1 attempts is the trace of k attempts, a 3000 ms pause, then attempt k + 1. |
| Retry.PauseCount | pages/BasePage.ts:114-136 | n attempts carry n - 1 pauses. |
| Retry.OnlyRetryPauses | pages/BasePage.ts:133-134 | Every pause in a retry trace is the 3000 ms pause between attempts. |
| Retry.PausesBetweenAttempts | pages/BasePage.ts:114-136 | With n attempts the trace holds n-1 pauses, all of 3000 ms, and does not end with one. |
| Retry.ClickFrom | pages/BasePage.ts:114-136 | From attempt a on, no attempt is made exactly when a exceeds the budget; otherwise the last attempt lies between a and `retries`. |
| Retry.ClickResult | pages/BasePage.ts:114-136 | A whole `click` makes no attempt exactly when `retries <= 0`, and otherwise between 1 and `retries` attempts. |
| Retry.ClickFromPasses | pages/BasePage.ts:114-136 | After failed attempts only, the rest of the loop passes exactly when one of the due attempts gets through. |
| Retry.ClickFromStops | pages/BasePage.ts:114-127 | The loop stops at the first attempt that gets through: every earlier attempt failed, and a pass comes from the last attempt made. |
| Retry.ClickFromFails | pages/BasePage.ts:128-132 | A failure is always the failure of attempt number `retries`, reported with the retry count and that attempt's error. |
| Retry.ClickResultSpec | pages/BasePage.ts:114-136 | `click` passes exactly when one of the due attempts gets through (always with `retries <= 0`). It returns at the first such attempt. It fails only when attempt number `retries` fails, with that attempt's error. |
| Retry.Click | pages/BasePage.ts:114-136 | The loop's verdict and attempt count are those of `ClickResult`: at most `retries` attempts, none when `retries <= 0`, first success returns, last failure raises. The trace is exactly the attempts made, separated by 3-second pauses. |
| Retry.Clear | pages/BasePage.ts:207-238 | The keyboard fallback runs exactly when the element was visible, clicked and natively cleared, and the value read afterwards is non-empty. `clear` passes exactly when a value read is empty. A value read that throws fails as a failed read. A value left after the fallback is reported verbatim. Every error is re-thrown in the clearing context. |
| Description.LowerCase | pages/BasePage.ts:247 | The tag name is lower-cased letter by letter (A-Z to a-z), other characters kept. |
| Description.FirstClass | pages/BasePage.ts:254 | The first class token is the longest prefix of the class attribute without a space. |
| Description.Describe | pages/BasePage.ts:245-259 | A truthy `data-testid` gives `tag[data-testid="…"]`, else a truthy id gives `tag#id`, else a truthy class gives `tag.first-class`, else the bare tag. A failed lookup gives `unknown element`. |
| Description.ShadowedAttributesIgnored | pages/BasePage.ts:252-253 | Once the test id (or the id) is truthy, the lower-priority attributes do not affect the description. |
| Description.PlaceholderOnlyOnFailure | pages/BasePage.ts:245-259 | For tag names without spaces, the description is `unknown element` if and only if the lookup failed. |
| Dialogs.Respond | pages/BasePage.ts:546-560 | `dismiss` dismisses. `accept` accepts with the prompt text only when it is truthy. `fill` always accepts with a text, the prompt text or `''`. |
| Dialogs.AcceptAgreesWithFill | pages/BasePage.ts:546-560 | `accept` and `fill` give the same response exactly when the prompt text is truthy. |
| Dialogs.HandleAlert | pages/BasePage.ts:541-568 | The listener answers every later dialog, each with the same response. |
| Dialogs.AlertWaitThousandfold | pages/BasePage.ts:601-604 | As written, the race timer runs 1000 times the given timeout: 5 000 000 ms by default. |
| Dialogs.WaitForAndHandleAlert | pages/BasePage.ts:576-611 | As written: a dialog is handled exactly when it appears before 1000 × timeout ms. The response is the action's mapping. Losing the race is not an error. |
| Dialogs.WaitForAndHandleAlertIntended | pages/BasePage.ts:576-611 | With the timeout read in milliseconds, a dialog is handled exactly when it appears before timeout ms. |
| Dialogs.LateDialogStillHandled | pages/BasePage.ts:603 | With the default timeout, a dialog at 6000 ms is handled as written but would not be under the documented 5000 ms bound. |
| Tabs.ResolveNavigation | pages/BasePage.ts:618-621 | The navigation timeout defaults to 10000 and the load state to the operation's own fallback. |
| Tabs.OpenIn | pages/BasePage.ts:825-829 | Every entry of the page list is a handle of a created page. |
| Tabs.OpenInSpec | pages/BasePage.ts:825-829 | The page list holds exactly the open pages, each once, in creation order. |
| Tabs.OpenInAppend | pages/BasePage.ts:777 | Helper lemma for `OpenInNewTab`: a newly created open page is listed last. |
| Tabs.NoneOpen | pages/BasePage.ts:825-829 | With every page closed, the list is empty. |
| Tabs.OnlyOpen | pages/BasePage.ts:825-829 | With one page open, the list is that page alone. |
| Tabs.CloseAll | pages/BasePage.ts:934-937 | Closing a list of handles closes exactly the pages it names and leaves every other page as it was. |
| Tabs.CloseAllStep | pages/BasePage.ts:934-937 | Closing one more handle changes only that page. |
| Tabs.AllButFirstClosed | pages/BasePage.ts:934-937 | Closing every listed page but the first leaves exactly the first listed, and leaves that page as it was. |
| Tabs.BasePage.constructor | pages/BasePage.ts:41-43 | A fresh façade drives the context's only page. |
| Tabs.BasePage.NavigateTo | pages/BasePage.ts:618-632 | Never an error, and the active handle stays. On a closed page nothing changes. Otherwise only the active page changes, to the title and URL the engine's `goto` ended on, loaded or not. A `goto` that ends where the page already was changes nothing. |
| Tabs.BasePage.OpenInNewTab | pages/BasePage.ts:766-791 | A new page is always created, listed last and left open, holding the title and URL its `goto` ended on. The call returns it exactly when it loaded and otherwise fails with the URL. Older pages and the active page do not change. |
| Tabs.BasePage.OpenInNewTabAndSwitch | pages/BasePage.ts:801-819 | As `openInNewTab`, including the new page's content either way. The new page becomes active only when it loads; a failure wraps the inner error and keeps the active page. |
| Tabs.BasePage.SwitchToPage | pages/BasePage.ts:836-848 | An in-range index makes that listed page active. Any other index fails with the index and the page count and switches nothing. Pages are untouched. |
| Tabs.BasePage.SwitchToPageByName | pages/BasePage.ts:855-870 | Switches to the first listed page whose title contains the key. The call fails, with the key and the page count, exactly when no title contains it, and then switches nothing. |
| Tabs.BasePage.SwitchToPageByUrl | pages/BasePage.ts:877-900 | Switches to the first listed page whose URL contains the string or satisfies the pattern. The call fails, with the pattern and no count, exactly when none matches, and then switches nothing. |
| Tabs.BasePage.ClosePage | pages/BasePage.ts:908-926 | An out-of-range index fails with the index and the count. Otherwise exactly the target is closed. Closing the active page switches to listed page 0 first, unless `switchToMain` is false. For index 0 that leaves the façade on the closed page. |
| Tabs.BasePage.ClosePageRepointing | pages/BasePage.ts:917-924 | Corrected `closePage`: close first, then move to the first page still listed. When another page was open, the active page is never a closed one. |
| Tabs.BasePage.CloseAllPagesExceptMain | pages/BasePage.ts:931-945 | The pages become `CloseAll` of every listed page but the first, so nothing else changes. The first becomes active, unchanged, and is then the only page listed. With no page open, nothing changes. |
| Tabs.OpenSwitchAndReturn | pages/BasePage.ts:931-945 | Opening and switching to a tab, then closing all but the main page, returns the façade to the original first page, unchanged, which is then the only one open. This holds whether or not the tab loads; the open call's result is kept. |
| Tabs.ClosingActiveMainPage | pages/BasePage.ts:917-924 | As written, `closePage(0)` with page 0 active and a second tab open leaves one page open and the façade on the closed page. |
| Tabs.ClosingActiveMainPageRepointed | pages/BasePage.ts:917-924 | The same calls on the corrected operation leave the façade on the remaining page. |
| Loggers.Rank | utilities/loggers.ts:1-7 | The levels' values are DEBUG = 0, INFO = 1, WARN = 2, ERROR = 3 and NONE = 4. |
| Loggers.RankInjective | utilities/loggers.ts:1-7 | Distinct levels have distinct values, so the order is total. |
| Loggers.RaisingSilences | utilities/loggers.ts:54-84 | Raising the threshold never lets more messages through. |
| Loggers.FormatThenParse | utilities/loggers.ts:28-37 | A formatted line `[ts] [LEVEL] message`, with ` json` appended only for a truthy payload, reads back as exactly its timestamp, level and body. |
| Loggers.IntToString | utilities/loggers.ts:91-93 | A number is written with a leading `-` exactly when it is negative. What follows is the decimal writing of the number's magnitude (`NatToString`): digits only, denoting it, with no leading zero. |
| Strings.NatToString | utilities/loggers.ts:91-93 | A non-negative number is written as decimal digits only, which denote it, with no leading zero except for 0 itself. |
| Loggers.Logger.constructor | utilities/loggers.ts:13-15 | A fresh logger's threshold is INFO. |
| Loggers.Logger.SetLogLevel | utilities/loggers.ts:24-26 | The threshold becomes the given level; it is the logger's only state. |
| Loggers.Logger.Log | utilities/loggers.ts:54-84 | The gate shared by the four level methods: a line is written exactly when the threshold lets the level through, and it reads back as that level with the message and payload. |
| Loggers.Logger.Debug | utilities/loggers.ts:54-60 | Written exactly when the threshold is DEBUG, as a DEBUG line with the message and payload. |
| Loggers.Logger.Info | utilities/loggers.ts:62-68 | Written exactly when the threshold is DEBUG or INFO, as an INFO line. |
| Loggers.Logger.Warn | utilities/loggers.ts:70-76 | Written exactly when the threshold is below ERROR, as a WARN line. |
| Loggers.Logger.Error | utilities/loggers.ts:78-84 | Written exactly when the threshold is not NONE, as an ERROR line. |
| Loggers.Logger.TestStart | utilities/loggers.ts:87-89 | An INFO line `🧪 Starting test: <name>`. |
| Loggers.Logger.TestEnd | utilities/loggers.ts:91-93 | An INFO line `✅ Test completed: <name> (<duration>ms)`. |
| Loggers.Logger.TestFail | utilities/loggers.ts:95-97 | An ERROR line `❌ Test failed: <name>` followed by the error payload. |
| Loggers.Logger.Step | utilities/loggers.ts:99-101 | An INFO line `📝 Step: <name>`. |
| Loggers.Logger.Assertion | utilities/loggers.ts:103-109 | A passed assertion is written at DEBUG, a failed one at WARN, each with its text. |
| Loggers.Logger.PageAction | utilities/loggers.ts:112-114 | A DEBUG line naming the action. |
| Loggers.PageActionText | utilities/loggers.ts:113 | ` on <element>` is appended exactly when the element is a non-empty string. |
| Loggers.Logger.ApiRequest | utilities/loggers.ts:117-119 | A DEBUG line `🌐 API <method>: <url>` with the payload. |
| Loggers.Logger.ApiResponse | utilities/loggers.ts:121-123 | A DEBUG line `📡 API Response (<status>): <url>` with the payload. |
| Loggers.NoneSilencesAll | utilities/loggers.ts:54-84 | At threshold NONE, no logging method writes anything. |
| Loggers.Registry.constructor | utilities/loggers.ts:10 | Before the first call the instance slot is empty. |
| Loggers.Registry.GetInstance | utilities/loggers.ts:17-22 | The first call creates a logger at INFO and stores it; every later call returns the stored one. |
| Loggers.LoadAndGetAgain | utilities/loggers.ts:127 | The exported `logger` is the instance later `getInstance` calls return, with whatever threshold was set in between. |
| CsvWriter.Lookup | utilities/CSVReader.ts:57 | A key the record lacks gives an empty field; a present key gives its cell. |
| CsvWriter.CsvContent | utilities/CSVReader.ts:46-61 | No content exactly for empty data. Otherwise the header line, a newline, then the data lines joined by newlines, with no trailing newline. |
| CsvWriter.NewCsvReader | utilities/CSVReader.ts:8-9 | The data directory defaults to `data`. |
| CsvWriter.WriteCsvToPath | utilities/CSVReader.ts:96-116 | Writes nothing exactly for empty data; otherwise writes the content to the given path. |
| CsvWriter.WriteCsv | utilities/CSVReader.ts:43-65 | The same write as `writeCSVToPath` under the reader's directory joined with the file name. |
| CsvWriter.OnlyHeaderCellsMatter | utilities/CSVReader.ts:56-58 | A data line depends only on the record's cells for the headers: keys absent from the first record are dropped. |
| CsvWriter.RowSplitsBack | utilities/CSVReader.ts:57 | When no field holds a comma, a data line splits back into exactly its fields. |
| CsvWriter.ContentNewlines | utilities/CSVReader.ts:53-61 | The content holds one newline per record, plus those inside the header line and the data lines. |
| CsvWriter.ContentLines | utilities/CSVReader.ts:53-61 | When neither the header line nor any data line holds a newline, the content splits into the header line followed by the data lines. |
| CsvWriter.LineCount | utilities/CSVReader.ts:53-61 | The content has `data.length + 1` lines exactly when neither the header line nor any data line holds a newline; then its lines are the header line and the data lines. |
| CsvWriter.Ambiguous | utilities/CSVReader.ts:53-58 | Without escaping, two different data sets (key `a,b` with value `1,2`; keys `a`, `b` with `1`, `2`) are written identically. |

## Left out

- The Playwright engine is not modelled: locator resolution, DOM events, `goto`, `waitForLoadState`, `reload`, `goBack`, `goForward`. Each enters only as the answers a call receives.
- Time is not modelled: sleeps appear as trace events, `Promise.race` as a comparison of the dialog's arrival time with the timer.
- Logging calls inside `BasePage`, console output, the log file (`writeToFile`), the `Date` timestamp and `JSON.stringify` are left out. The timestamp is a parameter, and a payload is given by its JSON text.
- CSV reading (`readCSV`, `readCSVFromPath`) goes through an external parser and the file system, and is left out. `writeFileSync` is returned as the write it would perform.
- `CsvWriter.Lookup`: a record is a sequence of key-cell pairs. Records with a repeated key, which a JavaScript object cannot have, are not excluded; for them `Lookup` takes the first pair.
- `path.join` is modelled as concatenation with `/`, without its normalisation.
- `Object.keys` ordering is taken as given, so the rule that integer-like keys come first is not modelled. Values are given already rendered as text, with `null`/`undefined` as the empty field.
- utilities/RandomData.ts, the page-object subclasses, the test files and the runner configuration are not part of this model.
- `fillInput`, `getText`, `getAttribute`, `waitForElementToDisappear`, `pressKey`, `typeText`, `dragAndDrop`, `waitForPageLoad`, `reloadPage`, `goBack`, `goForward` and `getPageTitle` are left out.
- Dialog listeners accumulate on the page in the source. `handleAlert` is modelled as a listener that answers every later dialog. The interaction of several registered listeners, and the listener `waitForAndHandleAlert` leaves behind after losing the race, are left out.
- `Retry.Click`: retries are integers, so a fractional `retries` option is not modelled. With a fractional value such as 2.5, no attempt number ever equals `retries`, and the source's loop ends without raising.
- `Retry.Click`: one engine answer per attempt must be supplied (`retries <= |worlds|`). This bounds the model's input, not the source's.
- `Description.LowerCase`: only ASCII letters are lower-cased.
- `Tabs.BasePage.OpenInNewTab`: the context always creates the page; a failure of `newPage()` itself is not modelled.
- `Tabs.BasePage.SwitchToPageByUrl`: a regular expression is a pure test. The `lastIndex` state of a global or sticky expression is not modelled.
- `Tabs.BasePage.ClosePage`: closing a page never fails.
- `Tabs.BasePage.constructor`: every façade starts its own context holding one page. Two façades over pages of one shared context, and pages opened by other code, are not modelled.
- `Tabs.BasePage.SwitchToPage`: indices are whole numbers. A fractional index such as 1.5 passes the source's range check and makes `this.page` undefined; this is not modelled.
- `Tabs.BasePage.ClosePage`: indices are whole numbers. A fractional index passes the source's range check, finds no page and then fails with a type error instead of the range error; this is not modelled.
- `Loggers.IntToString`: durations and status codes are integers. A fractional `duration` in `testEnd` (its decimal point and fraction) is not modelled.
- `Loggers.FormatThenParse`: the read-back is stated for a timestamp and level without `]`. ISO timestamps and the level names contain none.

The error of `switchToPageByUrl` names only the pattern, not the number of pages (pages/BasePage.ts:897).

## Findings

| source | as written | input that shows it | evidently intended | confidence | as-written member | corrected member |
|---|---|---|---|---|---|---|
| pages/BasePage.ts:603 | `waitForAndHandleAlert` passes its millisecond `timeout` (default 5000) to `waitForTimeoutInSeconds`, which multiplies by 1000 (line 680). | Default timeout, a dialog that appears after 6000 ms: it is still handled, because the race runs for 5000 s. | The race ends after `timeout` ms. | high, not executed | Dialogs.LateDialogStillHandled | Dialogs.WaitForAndHandleAlertIntended |
| pages/BasePage.ts:917-924 | When the closed page is the active one, `closePage` switches to listed page 0 before closing. For index 0 that is the page being closed. | Two pages open, page 0 active, `closePage(0)`: the façade is left on the closed page. | After closing the active page, drive a page that is still open. | medium, not executed | Tabs.ClosingActiveMainPage | Tabs.BasePage.ClosePageRepointing |

=== FILE: actions.dfy ===
/**
 * The element-interaction layer of `BasePage`: option defaults, the waits, the
 * interactability guard and the wait/guard/act pipeline that every element action
 * follows, with the single-attempt actions built on it.
 *
 * The automation engine is not modelled. Each query the façade makes about an element
 * is answered by an `Element` snapshot, and each primitive action by a success flag
 * (a `World`). Element references are re-resolved on every query, so a later
 * attempt gets a new `World`.
 */
module Actions {
  import opened Wrappers

  /** `BasePage.defaultTimeout`, in milliseconds. */
  const DefaultTimeout: int := 10000
  /** `BasePage.defaultRetries`. */
  const DefaultRetries: int := 3

  /** `ElementOptions`: every field may be left undefined. */
  datatype ElementOptions = ElementOptions(
    timeout: Option<int>, force: Option<bool>, delay: Option<int>, retries: Option<int>)

  /** The effective settings of one call, after `??` defaulting. */
  datatype Settings = Settings(timeout: int, force: bool, delay: int, retries: int)

  /** Option resolution at the head of `click` and its siblings. */
  function Resolve(o: ElementOptions): (e: Settings)
    ensures o.timeout.Some? ==> e.timeout == o.timeout.value
    ensures o.timeout.None? ==> e.timeout == DefaultTimeout
    ensures o.force.Some? ==> e.force == o.force.value
    ensures o.force.None? ==> !e.force
    ensures o.delay.Some? ==> e.delay == o.delay.value
    ensures o.delay.None? ==> e.delay == 0
    ensures o.retries.Some? ==> e.retries == o.retries.value
    ensures o.retries.None? ==> e.retries == DefaultRetries
  {
    Settings(OrElse(o.timeout, DefaultTimeout), OrElse(o.force, false),
             OrElse(o.delay, 0), OrElse(o.retries, DefaultRetries))
  }

  datatype WaitState = Attached | Detached | Visible | Hidden

  /** `WaitOptions`. */
  datatype WaitOptions = WaitOptions(timeout: Option<int>, state: Option<WaitState>)

  /** The effective timeout and target state of one `waitForElement` call. */
  datatype WaitSpec = WaitSpec(timeout: int, state: WaitState)

  function ResolveWait(o: WaitOptions): (w: WaitSpec)
    ensures o.timeout.Some? ==> w.timeout == o.timeout.value
    ensures o.timeout.None? ==> w.timeout == DefaultTimeout
    ensures o.state.Some? ==> w.state == o.state.value
    ensures o.state.None? ==> w.state == Visible
  {
    WaitSpec(OrElse(o.timeout, DefaultTimeout), OrElse(o.state, Visible))
  }

  /** What one query of the engine observes about an element. */
  datatype Element = Element(visible: bool, attached: bool, enabled: bool)

  /** The element satisfies a wait target (reached within the wait's timeout). */
  predicate Shows(e: Element, s: WaitState)
  {
    match s
    case Attached => e.attached
    case Detached => !e.attached
    case Visible => e.visible
    case Hidden => !e.visible
  }

  datatype Button = LeftButton | RightButton

  /** The engine's element primitives, with the arguments the façade passes to them. */
  datatype Primitive =
    | Click(button: Button, force: bool, delay: int, timeout: int)
    | DoubleClick(force: bool, delay: int, timeout: int)
    | Hover(timeout: int)
    | SelectOption(values: seq<string>, timeout: int)      // a single value is a one-element list
    | SelectOptionByLabel(text: string, timeout: int)
    | SetChecked(check: bool, timeout: int)
    | ScrollIntoView(timeout: int)
    | ClearValue(timeout: int)
    | ReadValue                                           // `inputValue()`
    | Press(key: string)

  /** The façade operation whose context an error is re-thrown with. */
  datatype Operation =
    | DoubleClicking | RightClicking | Hovering
    | SelectingOption(values: seq<string>) | SelectingOptionByText(text: string) | SettingChecked(check: bool)
    | ScrollingIntoView | Clearing

  /** The errors the interaction layer raises. */
  datatype Failure =
    | NotInState(state: WaitState, timeout: int)         // `waitForElement` timed out
    | NotInteractable                                     // the guard found the element disabled
    | ActionFailed(action: Primitive)                     // the engine primitive itself threw
    | ClickFailedAfter(retries: int, cause: Failure)      // `click` exhausted its attempts
    | ValueStillPresent(value: string)                    // `clear` left a residual value
    | While(op: Operation, cause: Failure)                // re-thrown with the operation's context

  /** `waitForElement`: succeeds when the element shows the target state, else a timeout error naming state and bound. */
  function WaitForElement(e: Element, o: WaitOptions): (r: Outcome<Failure>)
    ensures r.Pass? <==> Shows(e, ResolveWait(o).state)
    ensures r.Fail? ==> r.error == NotInState(ResolveWait(o).state, ResolveWait(o).timeout)
  {
    var spec := ResolveWait(o);
    if Shows(e, spec.state) then Pass else Fail(NotInState(spec.state, spec.timeout))
  }

  /** What the façade does, in order. */
  datatype Event =
    | Waited(state: WaitState, timeout: int)
    | QueriedEnabled
    | Performed(action: Primitive)
    | Slept(millis: int)

  /** The events of one run and how it ended. */
  datatype Run = Run(events: seq<Event>, outcome: Outcome<Failure>)

  /** `checkElementInteractability`: with `force` it neither queries nor fails; otherwise it fails exactly on a disabled element. */
  function CheckInteractability(e: Element, force: bool): (r: Run)
    ensures force ==> r.events == [] && r.outcome.Pass?
    ensures !force ==> r.events == [QueriedEnabled] && (r.outcome.Fail? <==> !e.enabled)
    ensures r.outcome.Fail? ==> r.outcome.error == NotInteractable
  {
    if force then Run([], Pass)
    else if e.enabled then Run([QueriedEnabled], Pass)
    else Run([QueriedEnabled], Fail(NotInteractable))
  }

  /** One step of an element action. */
  datatype Stage = Await(state: WaitState) | Guard | Act(action: Primitive)

  /** The engine's answers for one attempt. */
  datatype World = World(element: Element, actionSucceeds: bool)

  /** Whether a stage gets past the given world. */
  predicate StagePasses(st: Stage, force: bool, w: World)
  {
    match st
    case Await(s) => Shows(w.element, s)
    case Guard => force || w.element.enabled
    case Act(_) => w.actionSucceeds
  }

  /** What a stage does when it runs. */
  function StageEvents(st: Stage, force: bool, timeout: int): seq<Event>
  {
    match st
    case Await(s) => [Waited(s, timeout)]
    case Guard => if force then [] else [QueriedEnabled]
    case Act(a) => [Performed(a)]
  }

  /** What a whole plan does when every stage passes. */
  function PlanEvents(stages: seq<Stage>, force: bool, timeout: int): seq<Event>
  {
    if stages == [] then [] else StageEvents(stages[0], force, timeout) + PlanEvents(stages[1..], force, timeout)
  }

  /** The error a stage raises when it does not pass. */
  function StageError(st: Stage, timeout: int): Failure
  {
    match st
    case Await(s) => NotInState(s, timeout)
    case Guard => NotInteractable
    case Act(a) => ActionFailed(a)
  }

  function RunStage(st: Stage, force: bool, timeout: int, w: World): (r: Run)
    ensures r.events == StageEvents(st, force, timeout)
    ensures r.outcome.Pass? <==> StagePasses(st, force, w)
    ensures r.outcome.Fail? ==> r.outcome.error == StageError(st, timeout)
  {
    match st
    case Await(s) => Run([Waited(s, timeout)], WaitForElement(w.element, WaitOptions(Some(timeout), Some(s))))
    case Guard => CheckInteractability(w.element, force)
    case Act(a) => Run([Performed(a)], if w.actionSucceeds then Pass else Fail(ActionFailed(a)))
  }

  /**
   * Runs the stages in order inside one `try` block: the first stage that fails ends the
   * run with its error, and nothing after it happens.
   */
  function RunStages(stages: seq<Stage>, force: bool, timeout: int, w: World): (r: Run)
    ensures r.outcome.Pass? <==> forall i :: 0 <= i < |stages| ==> StagePasses(stages[i], force, w)
    ensures r.outcome.Pass? ==> r.events == PlanEvents(stages, force, timeout)
    ensures r.events <= PlanEvents(stages, force, timeout)
  {
    if stages == [] then Run([], Pass)
    else
      var first := RunStage(stages[0], force, timeout, w);
      if first.outcome.Fail? then first
      else
        var rest := RunStages(stages[1..], force, timeout, w);
        Run(first.events + rest.events, rest.outcome)
  }

  /** With `force`, no plan queries the enabled state or fails the guard. */
  lemma {:induction false} ForceSkipsGuard(stages: seq<Stage>, force: bool, timeout: int, w: World)
    ensures force ==> QueriedEnabled !in RunStages(stages, force, timeout, w).events
    ensures force ==> RunStages(stages, force, timeout, w).outcome != Fail(NotInteractable)
    decreases |stages|
  {
    if stages != [] {
      ForceSkipsGuard(stages[1..], force, timeout, w);
    }
  }

  /** One attempt of `click`: wait visible, wait attached, guard, then the primitive click. */
  function ClickPlan(e: Settings): seq<Stage>
  {
    [Await(Visible), Await(Attached), Guard, Act(Click(LeftButton, e.force, e.delay, e.timeout))]
  }

  function Attempt(e: Settings, w: World): Run
  {
    RunStages(ClickPlan(e), e.force, e.timeout, w)
  }

  /** An attempt of `click` gets through. */
  predicate AttemptSucceeds(e: Settings, w: World)
  {
    w.element.visible && w.element.attached && (e.force || w.element.enabled) && w.actionSucceeds
  }

  /** The error a failed attempt raises: that of the first step that failed. */
  function AttemptError(e: Settings, w: World): Failure
  {
    if !w.element.visible then NotInState(Visible, e.timeout)
    else if !w.element.attached then NotInState(Attached, e.timeout)
    else if !e.force && !w.element.enabled then NotInteractable
    else ActionFailed(Click(LeftButton, e.force, e.delay, e.timeout))
  }

  /** One unfolding of `RunStages`. */
  lemma RunStagesCons(stages: seq<Stage>, f: bool, t: int, w: World)
    requires stages != []
    ensures var r, st := RunStages(stages, f, t, w), stages[0];
      if !StagePasses(st, f, w) then r == Run(StageEvents(st, f, t), Fail(StageError(st, t)))
      else r == Run(StageEvents(st, f, t) + RunStages(stages[1..], f, t, w).events,
                    RunStages(stages[1..], f, t, w).outcome)
  {
  }

  /**
   * A run stops at its first failing stage: it makes the calls of the stages up to and
   * including that one, and fails with that stage's error.
   */
  lemma {:induction false} RunStagesStopsAt(stages: seq<Stage>, i: nat, f: bool, t: int, w: World)
    requires i < |stages|
    requires forall j :: 0 <= j < i ==> StagePasses(stages[j], f, w)
    requires !StagePasses(stages[i], f, w)
    ensures RunStages(stages, f, t, w) == Run(PlanEvents(stages[..i + 1], f, t), Fail(StageError(stages[i], t)))
    decreases i
  {
    var head, tail := stages[..i + 1], stages[1..];
    var first := RunStage(stages[0], f, t, w);
    assert PlanEvents(head, f, t) == StageEvents(stages[0], f, t) + PlanEvents(head[1..], f, t);
    if i == 0 {
      assert head[1..] == [];
    } else {
      assert StagePasses(stages[0], f, w);
      assert head[1..] == tail[..i];
      assert tail[i - 1] == stages[i];
      assert forall j :: 0 <= j < i - 1 ==> StagePasses(tail[j], f, w) by {
        forall j | 0 <= j < i - 1 ensures StagePasses(tail[j], f, w) {
          assert tail[j] == stages[j + 1];
        }
      }
      RunStagesStopsAt(tail, i - 1, f, t, w);
    }
  }

  /** How an attempt of `click` ends: it passes exactly when every step does, else with the first failing step's error. */
  lemma AttemptOutcome(e: Settings, w: World)
    ensures Attempt(e, w).outcome == if AttemptSucceeds(e, w) then Pass else Fail(AttemptError(e, w))
  {
    var f, t := e.force, e.timeout;
    var p0 := ClickPlan(e);
    var p1, p2, p3 := p0[1..], p0[2..], p0[3..];
    assert p1[1..] == p2 && p2[1..] == p3 && p3[1..] == [];
    RunStagesCons(p0, f, t, w);
    RunStagesCons(p1, f, t, w);
    RunStagesCons(p2, f, t, w);
    RunStagesCons(p3, f, t, w);
  }

  /** The calls a full attempt of `click` makes: both waits, the enabled-query unless forced, the click. */
  lemma ClickPlanEvents(e: Settings)
    ensures PlanEvents(ClickPlan(e), e.force, e.timeout) ==
      [Waited(Visible, e.timeout), Waited(Attached, e.timeout)]
      + (if e.force then [] else [QueriedEnabled])
      + [Performed(Click(LeftButton, e.force, e.delay, e.timeout))]
  {
    var f, t := e.force, e.timeout;
    var p0 := ClickPlan(e);
    var p1, p2, p3 := p0[1..], p0[2..], p0[3..];
    assert p1[1..] == p2 && p2[1..] == p3 && p3[1..] == [];
    assert PlanEvents(p3, f, t) == [Performed(Click(LeftButton, f, e.delay, t))];
    assert PlanEvents(p2, f, t) == (if f then [] else [QueriedEnabled]) + PlanEvents(p3, f, t);
    assert PlanEvents(p1, f, t) == [Waited(Attached, t)] + PlanEvents(p2, f, t);
  }

  /** What an attempt of `click` does: it starts with the visibility wait, never sleeps, and on success runs every step in order. */
  lemma AttemptEvents(e: Settings, w: World)
    ensures AttemptSucceeds(e, w) ==>
      Attempt(e, w).events ==
        [Waited(Visible, e.timeout), Waited(Attached, e.timeout)]
        + (if e.force then [] else [QueriedEnabled])
        + [Performed(Click(LeftButton, e.force, e.delay, e.timeout))]
    ensures |Attempt(e, w).events| >= 1 && Attempt(e, w).events[0] == Waited(Visible, e.timeout)
    ensures forall k :: 0 <= k < |Attempt(e, w).events| ==> !Attempt(e, w).events[k].Slept?
  {
    ClickPlanEvents(e);
    AttemptOutcome(e, w);
    RunStagesCons(ClickPlan(e), e.force, e.timeout, w);
  }

  /** The single-attempt operations, by the steps they take. */
  predicate ClickLike(op: Operation)
  {
    op.DoubleClicking? || op.RightClicking? || op.Hovering?
  }

  predicate FormLike(op: Operation)
  {
    op.SelectingOption? || op.SelectingOptionByText? || op.SettingChecked?
  }

  /** The engine primitive each single-attempt operation ends with, with the arguments it passes. */
  function ActionOf(op: Operation, e: Settings): Primitive
    requires !op.Clearing?
  {
    match op
    case DoubleClicking => DoubleClick(e.force, e.delay, e.timeout)
    case RightClicking => Click(RightButton, e.force, e.delay, e.timeout)
    case Hovering => Hover(e.timeout)
    case SelectingOption(values) => SelectOption(values, e.timeout)
    case SelectingOptionByText(text) => SelectOptionByLabel(text, e.timeout)
    case SettingChecked(c) => SetChecked(c, e.timeout)
    case ScrollingIntoView => ScrollIntoView(e.timeout)
  }

  function PlanFor(op: Operation, e: Settings): seq<Stage>
    requires !op.Clearing?
  {
    if ClickLike(op) then [Await(Visible), Await(Attached), Guard, Act(ActionOf(op, e))]
    else if FormLike(op) then [Await(Visible), Guard, Act(ActionOf(op, e))]
    else [Await(Attached), Act(ActionOf(op, e))]
  }

  /** The calls a guard makes: none when forced, the enabled-query otherwise. */
  function GuardEvents(force: bool): seq<Event>
  {
    if force then [] else [QueriedEnabled]
  }

  /** The calls of a full four-stage plan `wait, wait, guard, act`. */
  lemma FourStageEvents(a: WaitState, b: WaitState, x: Primitive, f: bool, t: int)
    ensures PlanEvents([Await(a), Await(b), Guard, Act(x)], f, t) ==
      [Waited(a, t), Waited(b, t)] + GuardEvents(f) + [Performed(x)]
  {
    var p0 := [Await(a), Await(b), Guard, Act(x)];
    assert p0[1..] == [Await(b), Guard, Act(x)];
    ThreeStageEvents(b, x, f, t);
  }

  /** A four-stage plan `wait, wait, guard, act`: its verdict, its first failure and its calls. */
  lemma FourStages(a: WaitState, b: WaitState, x: Primitive, f: bool, t: int, w: World)
    ensures var r := RunStages([Await(a), Await(b), Guard, Act(x)], f, t, w);
      r.outcome == if Shows(w.element, a) && Shows(w.element, b) && (f || w.element.enabled) && w.actionSucceeds
                   then Pass
                   else Fail(if !Shows(w.element, a) then NotInState(a, t)
                             else if !Shows(w.element, b) then NotInState(b, t)
                             else if !f && !w.element.enabled then NotInteractable
                             else ActionFailed(x))
    ensures PlanEvents([Await(a), Await(b), Guard, Act(x)], f, t) ==
      [Waited(a, t), Waited(b, t)] + GuardEvents(f) + [Performed(x)]
  {
    var p0 := [Await(a), Await(b), Guard, Act(x)];
    assert p0[1..] == [Await(b), Guard, Act(x)];
    ThreeStages(b, x, f, t, w);
    RunStagesCons(p0, f, t, w);
    FourStageEvents(a, b, x, f, t);
  }

  /** The calls of a full three-stage plan `wait, guard, act`. */
  lemma ThreeStageEvents(a: WaitState, x: Primitive, f: bool, t: int)
    ensures PlanEvents([Await(a), Guard, Act(x)], f, t) == [Waited(a, t)] + GuardEvents(f) + [Performed(x)]
  {
    var p0 := [Await(a), Guard, Act(x)];
    var p1, p2 := p0[1..], p0[2..];
    assert p1[1..] == p2 && p2[1..] == [];
    assert PlanEvents(p2, f, t) == [Performed(x)];
  }

  /** A three-stage plan `wait, guard, act`: its verdict, its first failure and its calls. */
  lemma ThreeStages(a: WaitState, x: Primitive, f: bool, t: int, w: World)
    ensures var r := RunStages([Await(a), Guard, Act(x)], f, t, w);
      r.outcome == if Shows(w.element, a) && (f || w.element.enabled) && w.actionSucceeds
                   then Pass
                   else Fail(if !Shows(w.element, a) then NotInState(a, t)
                             else if !f && !w.element.enabled then NotInteractable
                             else ActionFailed(x))
    ensures PlanEvents([Await(a), Guard, Act(x)], f, t) == [Waited(a, t)] + GuardEvents(f) + [Performed(x)]
  {
    var p0 := [Await(a), Guard, Act(x)];
    var p1, p2 := p0[1..], p0[2..];
    assert p1[1..] == p2 && p2[1..] == [];
    RunStagesCons(p0, f, t, w);
    RunStagesCons(p1, f, t, w);
    RunStagesCons(p2, f, t, w);
    ThreeStageEvents(a, x, f, t);
  }

  /** A two-stage plan `wait, act`: its verdict, its first failure and its calls. */
  lemma TwoStages(a: WaitState, x: Primitive, f: bool, t: int, w: World)
    ensures var r := RunStages([Await(a), Act(x)], f, t, w);
      r.outcome == if Shows(w.element, a) && w.actionSucceeds then Pass
                   else Fail(if !Shows(w.element, a) then NotInState(a, t) else ActionFailed(x))
    ensures PlanEvents([Await(a), Act(x)], f, t) == [Waited(a, t), Performed(x)]
    ensures RunStages([Await(a), Act(x)], f, t, w).events == [Waited(a, t)] + (if Shows(w.element, a) then [Performed(x)] else [])
  {
    var p0 := [Await(a), Act(x)];
    var p1 := p0[1..];
    assert p1 == [Act(x)] && p1[1..] == [];
    RunStagesCons(p0, f, t, w);
    RunStagesCons(p1, f, t, w);
    assert PlanEvents(p1, f, t) == [Performed(x)];
  }

  /** Re-throws a failure with the operation's context (`Error double-clicking element: …`). */
  function InContext(op: Operation, r: Run): Run
  {
    if r.outcome.Pass? then r else Run(r.events, Fail(While(op, r.outcome.error)))
  }

  /** One attempt of an operation's plan, any failure re-thrown in the operation's context. */
  function Interact(op: Operation, e: Settings, w: World): (r: Run)
    requires !op.Clearing?
    ensures r.events <= PlanEvents(PlanFor(op, e), e.force, e.timeout)
    ensures e.force ==> QueriedEnabled !in r.events
  {
    ForceSkipsGuard(PlanFor(op, e), e.force, e.timeout, w);
    InContext(op, RunStages(PlanFor(op, e), e.force, e.timeout, w))
  }

  /**
   * `doubleClick`, `rightClick` and `hover`: wait visible, wait attached, guard, then the
   * primitive, in one attempt; the first failing step's error is re-thrown in the
   * operation's context.
   */
  function MouseAction(op: Operation, o: ElementOptions, w: World): (r: Run)
    requires ClickLike(op)
    ensures var e := Resolve(o);
      r.outcome.Pass? <==> w.element.visible && w.element.attached && (e.force || w.element.enabled) && w.actionSucceeds
    ensures var e := Resolve(o);
      r.outcome.Pass? ==>
        r.events == [Waited(Visible, e.timeout), Waited(Attached, e.timeout)] + GuardEvents(e.force) + [Performed(ActionOf(op, e))]
    ensures var e := Resolve(o);
      r.events <= [Waited(Visible, e.timeout), Waited(Attached, e.timeout)] + GuardEvents(e.force) + [Performed(ActionOf(op, e))]
    ensures var e := Resolve(o);
      r.outcome.Fail? ==>
        r.outcome.error == While(op, if !w.element.visible then NotInState(Visible, e.timeout)
                                     else if !w.element.attached then NotInState(Attached, e.timeout)
                                     else if !e.force && !w.element.enabled then NotInteractable
                                     else ActionFailed(ActionOf(op, e)))
    ensures Resolve(o).force ==> QueriedEnabled !in r.events
  {
    var e := Resolve(o);
    FourStages(Visible, Attached, ActionOf(op, e), e.force, e.timeout, w);
    Interact(op, e, w)
  }

  /**
   * `selectOption`, `selectOptionByText` and `setChecked`: wait visible, guard, then the
   * primitive with the value, label or state given; no attached wait.
   */
  function FormAction(op: Operation, o: ElementOptions, w: World): (r: Run)
    requires FormLike(op)
    ensures var e := Resolve(o);
      r.outcome.Pass? <==> w.element.visible && (e.force || w.element.enabled) && w.actionSucceeds
    ensures var e := Resolve(o);
      r.outcome.Pass? ==> r.events == [Waited(Visible, e.timeout)] + GuardEvents(e.force) + [Performed(ActionOf(op, e))]
    ensures var e := Resolve(o);
      r.events <= [Waited(Visible, e.timeout)] + GuardEvents(e.force) + [Performed(ActionOf(op, e))]
    ensures var e := Resolve(o);
      r.outcome.Fail? ==>
        r.outcome.error == While(op, if !w.element.visible then NotInState(Visible, e.timeout)
                                     else if !e.force && !w.element.enabled then NotInteractable
                                     else ActionFailed(ActionOf(op, e)))
    ensures Resolve(o).force ==> QueriedEnabled !in r.events
  {
    var e := Resolve(o);
    ThreeStages(Visible, ActionOf(op, e), e.force, e.timeout, w);
    Interact(op, e, w)
  }

  /** `scrollIntoView`: wait attached, then scroll; no visibility wait and no guard. */
  function ScrollElementIntoView(o: ElementOptions, w: World): (r: Run)
    ensures r.outcome.Pass? <==> w.element.attached && w.actionSucceeds
    ensures r.outcome.Pass? ==> r.events == [Waited(Attached, Resolve(o).timeout), Performed(ScrollIntoView(Resolve(o).timeout))]
    ensures r.events <= [Waited(Attached, Resolve(o).timeout), Performed(ScrollIntoView(Resolve(o).timeout))]
    ensures r.outcome.Fail? ==>
      r.outcome.error == While(ScrollingIntoView, if !w.element.attached then NotInState(Attached, Resolve(o).timeout)
                                                  else ActionFailed(ScrollIntoView(Resolve(o).timeout)))
  {
    var e := Resolve(o);
    TwoStages(Attached, ScrollIntoView(e.timeout), e.force, e.timeout, w);
    Interact(ScrollingIntoView, e, w)
  }

  /** `isElementVisible`: `None` stands for a query that threw, which yields `false`. */
  function IsElementVisible(probe: Option<Element>): (r: bool)
    ensures r <==> probe.Some? && probe.value.visible
  {
    match probe
    case Some(e) => e.visible
    case None => false
  }

  /** `isElementEnabale` (sic): a query that threw yields `false`. */
  function IsElementEnabled(probe: Option<Element>): (r: bool)
    ensures r <==> probe.Some? && probe.value.enabled
  {
    match probe
    case Some(e) => e.enabled
    case None => false
  }

  /**
   * `isVisible`: a visibility wait, then a second query; a failure of either yields `false`,
   * never an error.
   */
  function IsVisible(o: ElementOptions, first: Element, second: Option<Element>): (r: bool)
    ensures r ==> first.visible
    ensures r <==> first.visible && IsElementVisible(second)
  {
    var waited := WaitForElement(first, WaitOptions(Some(Resolve(o).timeout), Some(Visible)));
    if waited.Fail? then false else IsElementVisible(second)
  }

  /** `waitForTimeoutInSeconds`: the argument is multiplied by 1000 before it reaches `setTimeout`. */
  function SecondsToMillis(seconds: int): (millis: int)
    ensures millis % 1000 == 0 && millis / 1000 == seconds
  {
    seconds * 1000
  }
}

=== FILE: csv.dfy ===
/**
 * The CSV writer of `CSVReader`: a header line built from the first record's keys,
 * then one line per record with its values for those keys, without quoting or escaping.
 *
 * A record is its keys in `Object.keys` order, each with a cell; a cell is a value as
 * `Array.prototype.join` renders it, where `null` and `undefined` become the empty field.
 * Writing the file is returned as the `FileWrite` it would perform.
 */
module CsvWriter {
  import opened Wrappers
  import Strings

  datatype Cell = Missing | Text(text: string)

  /** A record: its own keys in enumeration order, each with its cell. */
  type Record = seq<(string, Cell)>

  /** How `join` writes a cell. */
  function Field(c: Cell): string
  {
    match c
    case Missing => ""
    case Text(t) => t
  }

  /** `Object.keys(record)`. */
  function Keys(r: Record): seq<string>
  {
    seq(|r|, i requires 0 <= i < |r| => r[i].0)
  }

  /** `record[key]`: the cell of the key, `Missing` for a key the record lacks. */
  function Lookup(r: Record, key: string): (c: Cell)
    ensures key !in Keys(r) ==> c == Missing
    ensures key in Keys(r) ==> exists i :: 0 <= i < |r| && r[i] == (key, c)
  {
    if r == [] then Missing
    else if r[0].0 == key then
      assert Keys(r)[0] == key;
      r[0].1
    else
      assert Keys(r) == [r[0].0] + Keys(r[1..]);
      var c := Lookup(r[1..], key);
      assert key in Keys(r[1..]) ==> exists i :: 0 < i < |r| && r[i] == (key, c) by {
        if key in Keys(r[1..]) {
          var i :| 0 <= i < |r[1..]| && r[1..][i] == (key, c);
          assert r[i + 1] == (key, c);
        }
      }
      c
  }

  /** `headers.map(header => record[header])`, as the fields `join` writes. */
  function Fields(headers: seq<string>, r: Record): seq<string>
  {
    seq(|headers|, i requires 0 <= i < |headers| => Field(Lookup(r, headers[i])))
  }

  /** One data line. */
  function RenderRow(headers: seq<string>, r: Record): string
  {
    Strings.Join(Fields(headers, r), ",")
  }

  /** `data.map(row => ...)`: the data lines, one per record. */
  function RenderRows(headers: seq<string>, data: seq<Record>): seq<string>
  {
    seq(|data|, i requires 0 <= i < |data| => RenderRow(headers, data[i]))
  }

  /** The header line, without its newline. */
  function HeaderLine(data: seq<Record>): string
    requires data != []
  {
    Strings.Join(Keys(data[0]), ",")
  }

  /**
   * The content `writeCSV` and `writeCSVToPath` write: nothing for empty data, else the
   * header line, a newline, and the data lines joined by newlines (no trailing newline).
   */
  function CsvContent(data: seq<Record>): (r: Option<string>)
    ensures r.None? <==> data == []
    ensures r.Some? ==> HeaderLine(data) + "\n" <= r.value
    ensures r.Some? ==> r.value[|HeaderLine(data)| + 1..] == Strings.Join(RenderRows(Keys(data[0]), data), "\n")
  {
    if data == [] then None
    else
      var content := HeaderLine(data) + "\n" + Strings.Join(RenderRows(Keys(data[0]), data), "\n");
      assert content[|HeaderLine(data)| + 1..] == Strings.Join(RenderRows(Keys(data[0]), data), "\n");
      Some(content)
  }

  /** `path.join(directory, name)`, without the normalisation of `.`, `..` and repeated separators. */
  function JoinPath(directory: string, name: string): string
  {
    directory + "/" + name
  }

  /** The file a call writes. */
  datatype FileWrite = FileWrite(path: string, content: string)

  /** A `CSVReader`; its data directory is fixed at construction. */
  datatype CsvReader = CsvReader(dataPath: string)

  /** `new CSVReader(dataPath?)`: the directory defaults to `data`. */
  function NewCsvReader(dataPath: Option<string>): (r: CsvReader)
    ensures dataPath.Some? ==> r.dataPath == dataPath.value
    ensures dataPath.None? ==> r.dataPath == "data"
  {
    CsvReader(OrElse(dataPath, "data"))
  }

  /** `writeCSVToPath`: writes the content to `filePath`; empty data writes nothing. */
  function WriteCsvToPath(data: seq<Record>, filePath: string): (w: Option<FileWrite>)
    ensures w.None? <==> data == []
    ensures w.Some? ==> w.value.path == filePath && Some(w.value.content) == CsvContent(data)
  {
    match CsvContent(data)
    case None => None
    case Some(content) => Some(FileWrite(filePath, content))
  }

  /** `writeCSV`: the same content, written under the reader's data directory. */
  function WriteCsv(reader: CsvReader, data: seq<Record>, filename: string): (w: Option<FileWrite>)
    ensures w == WriteCsvToPath(data, JoinPath(reader.dataPath, filename))
    ensures w.Some? ==> w.value.path == reader.dataPath + "/" + filename
  {
    if data == [] then None
    else Some(FileWrite(JoinPath(reader.dataPath, filename), CsvContent(data).value))
  }

  /** Keys that only later records have are not written: a record's line depends only on its cells for the headers. */
  lemma OnlyHeaderCellsMatter(headers: seq<string>, r1: Record, r2: Record)
    requires forall h :: h in headers ==> Lookup(r1, h) == Lookup(r2, h)
    ensures RenderRow(headers, r1) == RenderRow(headers, r2)
  {
    assert Fields(headers, r1) == Fields(headers, r2);
  }

  /** A record line splits back into its fields when no field holds a comma. */
  lemma RowSplitsBack(headers: seq<string>, r: Record)
    requires |headers| >= 1
    requires forall h :: h in headers ==> ',' !in Field(Lookup(r, h))
    ensures Strings.Split(RenderRow(headers, r), ',') == Fields(headers, r)
  {
    var fs := Fields(headers, r);
    forall k | 0 <= k < |fs|
      ensures ',' !in fs[k]
    {
      assert headers[k] in headers;
    }
    Strings.SplitJoin(fs, ',');
  }

  /** A string has one more `split` field than occurrences of the separator. */
  lemma {:induction false} SplitCount(s: string, c: char)
    ensures |Strings.Split(s, c)| == Strings.Count(s, c) + 1
    decreases |s|
  {
    if |s| > 0 {
      SplitCount(s[1..], c);
      assert s == [s[0]] + s[1..];
      Strings.CountAppend([s[0]], s[1..], c);
      assert [s[0]][..0] == [];
    }
  }

  /** The content holds one newline per record, plus those inside the header line and the data lines. */
  lemma ContentNewlines(data: seq<Record>)
    requires data != []
    ensures Strings.Count(CsvContent(data).value, '\n')
      == |data| + Strings.Count(HeaderLine(data), '\n') + Strings.CountAll(RenderRows(Keys(data[0]), data), '\n')
  {
    var header := HeaderLine(data);
    var rows := RenderRows(Keys(data[0]), data);
    var block := Strings.Join(rows, "\n");
    assert CsvContent(data).value == (header + "\n") + block;
    Strings.CountAppend(header + "\n", block, '\n');
    Strings.CountAppend(header, "\n", '\n');
    assert Strings.Count("\n", '\n') == 1;
    Strings.CountJoin(rows, "\n", '\n');
  }

  /** Without newlines inside them, the content's lines are the header line and the data lines. */
  lemma ContentLines(data: seq<Record>)
    requires data != []
    requires '\n' !in HeaderLine(data)
    requires forall i :: 0 <= i < |data| ==> '\n' !in RenderRows(Keys(data[0]), data)[i]
    ensures Strings.Split(CsvContent(data).value, '\n') == [HeaderLine(data)] + RenderRows(Keys(data[0]), data)
  {
    var header := HeaderLine(data);
    var rows := RenderRows(Keys(data[0]), data);
    var parts := [header] + rows;
    assert parts[1..] == rows;
    assert Strings.Join(parts, "\n") == CsvContent(data).value;
    forall k | 0 <= k < |parts|
      ensures '\n' !in parts[k]
    {
      if k > 0 {
        assert parts[k] == rows[k - 1];
      }
    }
    Strings.SplitJoin(parts, '\n');
  }

  /**
   * The content has exactly `data.length + 1` lines if and only if neither the header
   * line nor any data line holds a newline; then its lines are the header line and the
   * data lines.
   */
  lemma LineCount(data: seq<Record>)
    requires data != []
    ensures var lines := Strings.Split(CsvContent(data).value, '\n');
      var rows := RenderRows(Keys(data[0]), data);
      (|lines| == |data| + 1 <==> ('\n' !in HeaderLine(data) && forall i :: 0 <= i < |rows| ==> '\n' !in rows[i]))
      && (|lines| == |data| + 1 ==> lines == [HeaderLine(data)] + rows)
  {
    var rows := RenderRows(Keys(data[0]), data);
    ContentNewlines(data);
    SplitCount(CsvContent(data).value, '\n');
    Strings.CountZero(HeaderLine(data), '\n');
    Strings.CountAllZero(rows, '\n');
    if '\n' !in HeaderLine(data) && forall i :: 0 <= i < |rows| ==> '\n' !in rows[i] {
      ContentLines(data);
    }
  }

  /**
   * Without escaping the content does not determine the data: one record with the key
   * `a,b` and the value `1,2` is written exactly as one record with keys `a` and `b`.
   */
  lemma Ambiguous()
    ensures var one := [[("a,b", Text("1,2"))]];
      var two := [[("a", Text("1")), ("b", Text("2"))]];
      one != two && CsvContent(one) == CsvContent(two) == Some("a,b\n1,2")
  {
    var one: seq<Record> := [[("a,b", Text("1,2"))]];
    var two: seq<Record> := [[("a", Text("1")), ("b", Text("2"))]];
    assert Keys(one[0]) == ["a,b"];
    assert Keys(two[0]) == ["a", "b"];
    assert Fields(["a,b"], one[0]) == ["1,2"];
    assert Fields(["a", "b"], two[0]) == ["1", "2"];
    assert Strings.Join(["1", "2"], ",") == "1,2" by {
      assert ["1", "2"][1..] == ["2"];
    }
    assert Strings.Join(["a", "b"], ",") == "a,b" by {
      assert ["a", "b"][1..] == ["b"];
    }
    assert RenderRows(["a,b"], one) == ["1,2"];
    assert RenderRows(["a", "b"], two) == ["1,2"];
    assert CsvContent(one) == Some("a,b" + "\n" + "1,2");
    assert CsvContent(two) == Some("a,b" + "\n" + "1,2");
    assert "a,b" + "\n" + "1,2" == "a,b\n1,2";
  }
}

=== FILE: description.dfy ===
/**
 * `BasePage.getElementDescription`: a best-effort label for log messages built from the
 * element's tag name and, in order of preference, its test id, its id or its first class.
 */
module Description {
  import opened Wrappers
  import Strings

  /**
   * What the four lookups return: the tag name and the `id`, `class` and `data-testid`
   * attributes (`None` for an attribute the element does not have).
   */
  datatype Node = Node(tagName: string, id: Option<string>, className: Option<string>, testId: Option<string>)

  /** The placeholder for an element whose lookups threw. */
  const Unknown: string := "unknown element"

  /** `toLowerCase` on the ASCII letters that tag names are made of. */
  function LowerCase(s: string): (r: string)
    ensures |r| == |s|
    ensures forall k :: 0 <= k < |s| ==> r[k] == (if 'A' <= s[k] <= 'Z' then s[k] - 'A' + 'a' else s[k])
  {
    if s == [] then []
    else [if 'A' <= s[0] <= 'Z' then s[0] - 'A' + 'a' else s[0]] + LowerCase(s[1..])
  }

  /** `className.split(' ')[0]`. */
  function FirstClass(className: string): (r: string)
    ensures r <= className && ' ' !in r
    ensures |r| < |className| ==> className[|r|] == ' '
  {
    Strings.SplitHead(className, ' ');
    Strings.Split(className, ' ')[0]
  }

  /**
   * `getElementDescription`: `lookup` is `None` when any of the lookups threw. A test id
   * wins over an id, an id over a class; empty attribute values count as absent.
   */
  function Describe(lookup: Option<Node>): (r: string)
    ensures lookup.None? ==> r == Unknown
    ensures lookup.Some? && Truthy(lookup.value.testId) ==>
      r == LowerCase(lookup.value.tagName) + "[data-testid=\"" + lookup.value.testId.value + "\"]"
    ensures lookup.Some? && !Truthy(lookup.value.testId) && Truthy(lookup.value.id) ==>
      r == LowerCase(lookup.value.tagName) + "#" + lookup.value.id.value
    ensures lookup.Some? && !Truthy(lookup.value.testId) && !Truthy(lookup.value.id) && Truthy(lookup.value.className) ==>
      exists token ::
        r == LowerCase(lookup.value.tagName) + "." + token && token <= lookup.value.className.value && ' ' !in token
        && (token == lookup.value.className.value || lookup.value.className.value[|token|] == ' ')
    ensures lookup.Some? && !Truthy(lookup.value.testId) && !Truthy(lookup.value.id) && !Truthy(lookup.value.className) ==>
      r == LowerCase(lookup.value.tagName)
  {
    match lookup
    case None => Unknown
    case Some(n) =>
      var tag := LowerCase(n.tagName);
      if Truthy(n.testId) then tag + "[data-testid=\"" + n.testId.value + "\"]"
      else if Truthy(n.id) then tag + "#" + n.id.value
      else if Truthy(n.className) then
        var token := FirstClass(n.className.value);
        assert |token| == |n.className.value| ==> token == n.className.value;
        tag + "." + token
      else tag
  }

  /** Attributes of lower precedence than the one used do not affect the description. */
  lemma ShadowedAttributesIgnored(n: Node, id': Option<string>, className': Option<string>)
    ensures Truthy(n.testId) ==>
      Describe(Some(n)) == Describe(Some(Node(n.tagName, id', className', n.testId)))
    ensures !Truthy(n.testId) && Truthy(n.id) ==>
      Describe(Some(n)) == Describe(Some(Node(n.tagName, n.id, className', n.testId)))
  {
  }

  /** A tag name without spaces never describes as the failure placeholder, so the placeholder always signals a failed lookup. */
  lemma PlaceholderOnlyOnFailure(lookup: Option<Node>)
    requires lookup.Some? ==> ' ' !in lookup.value.tagName
    ensures Describe(lookup) == Unknown <==> lookup.None?
  {
    if lookup.Some? {
      var n := lookup.value;
      var tag, r := LowerCase(n.tagName), Describe(lookup);
      var marks := {'[', '#', '.'};
      assert forall k :: 0 <= k < |Unknown| ==> Unknown[k] !in marks;
      if Truthy(n.testId) || Truthy(n.id) || Truthy(n.className) {
        assert |tag| < |r| && r[|tag|] in marks;
      } else {
        assert r == tag;
        assert Unknown[7] == ' ';
        forall k | 0 <= k < |tag| ensures tag[k] != ' ' {
          assert n.tagName[k] in n.tagName;
        }
      }
    }
  }
}

=== FILE: dialogs.dfy ===
/**
 * Dialog handling in `BasePage`: the mapping from the requested action to the response
 * given to a dialog, and the bounded wait of `waitForAndHandleAlert`.
 */
module Dialogs {
  import opened Wrappers
  import Actions

  /** The `action` argument of `handleAlert` and `waitForAndHandleAlert`. */
  datatype DialogAction = Accept | Dismiss | Fill

  /** What the listener does to a dialog: `accept(text)`, `accept()` or `dismiss()`. */
  datatype Response = AcceptedWithText(text: string) | Accepted | Dismissed

  /**
   * The listener's `switch`: `accept` passes the prompt text only when it is truthy,
   * `fill` always passes a text (`promptText || ''`), `dismiss` ignores it.
   */
  function Respond(action: DialogAction, promptText: Option<string>): (r: Response)
    ensures r.Dismissed? <==> action == Dismiss
    ensures action == Accept ==> (r == Accepted <==> !Truthy(promptText))
    ensures action == Accept && Truthy(promptText) ==> r == AcceptedWithText(promptText.value)
    ensures action == Fill ==> r.AcceptedWithText? && (Truthy(promptText) <==> r.text != "")
    ensures action == Fill && r.text != "" ==> promptText == Some(r.text)
  {
    match action
    case Accept => if Truthy(promptText) then AcceptedWithText(promptText.value) else Accepted
    case Dismiss => Dismissed
    case Fill => AcceptedWithText(if Truthy(promptText) then promptText.value else "")
  }

  /** `accept` and `fill` agree exactly when the prompt text is truthy. */
  lemma AcceptAgreesWithFill(promptText: Option<string>)
    ensures Respond(Accept, promptText) == Respond(Fill, promptText) <==> Truthy(promptText)
  {
  }

  /** `handleAlert`: the persistent listener answers every later dialog the same way. */
  function HandleAlert(action: DialogAction, promptText: Option<string>, dialogs: nat): (r: seq<Response>)
    ensures |r| == dialogs
    ensures forall k :: 0 <= k < |r| ==> r[k] == Respond(action, promptText)
  {
    if dialogs == 0 then [] else HandleAlert(action, promptText, dialogs - 1) + [Respond(action, promptText)]
  }

  /** The default `timeout` argument of `waitForAndHandleAlert`, documented in milliseconds. */
  const DefaultAlertTimeout: int := 5000

  /** How long `waitForAndHandleAlert` races the dialog, as written: the timeout goes through `waitForTimeoutInSeconds`. */
  function AlertWaitAsWritten(timeout: Option<int>): int
  {
    Actions.SecondsToMillis(OrElse(timeout, DefaultAlertTimeout))
  }

  /** How long it was meant to race the dialog: `timeout` milliseconds. */
  function AlertWaitIntended(timeout: Option<int>): int
  {
    OrElse(timeout, DefaultAlertTimeout)
  }

  /** The as-written bound is a thousand times the documented one. */
  lemma AlertWaitThousandfold(timeout: Option<int>)
    ensures AlertWaitAsWritten(timeout) == 1000 * AlertWaitIntended(timeout)
    ensures timeout.None? ==> AlertWaitAsWritten(timeout) == 5000000
  {
  }

  /**
   * `waitForAndHandleAlert` as written. `dialogAt` is when the next dialog appears, in
   * milliseconds after the call (`None`: none appears). The result is the response given
   * when the dialog wins the race, `None` when the timer wins; neither is an error.
   */
  function WaitForAndHandleAlert(action: DialogAction, promptText: Option<string>, timeout: Option<int>, dialogAt: Option<nat>)
    : (r: Option<Response>)
    ensures r.Some? <==> dialogAt.Some? && dialogAt.value < 1000 * OrElse(timeout, DefaultAlertTimeout)
    ensures r.Some? ==> r.value == Respond(action, promptText)
  {
    if dialogAt.Some? && dialogAt.value < AlertWaitAsWritten(timeout) then Some(Respond(action, promptText)) else None
  }

  /** `waitForAndHandleAlert` with the timeout taken in milliseconds, as documented. */
  function WaitForAndHandleAlertIntended(action: DialogAction, promptText: Option<string>, timeout: Option<int>, dialogAt: Option<nat>)
    : (r: Option<Response>)
    ensures r.Some? <==> dialogAt.Some? && dialogAt.value < OrElse(timeout, DefaultAlertTimeout)
    ensures r.Some? ==> r.value == Respond(action, promptText)
  {
    if dialogAt.Some? && dialogAt.value < AlertWaitIntended(timeout) then Some(Respond(action, promptText)) else None
  }

  /**
   * With the default timeout, a dialog that appears after 6 seconds is still handled as
   * written (the race runs for 5000 seconds), while the documented 5000 ms bound has passed.
   */
  lemma LateDialogStillHandled()
    ensures WaitForAndHandleAlert(Accept, None, None, Some(6000)) == Some(Accepted)
    ensures WaitForAndHandleAlertIntended(Accept, None, None, Some(6000)) == None
  {
  }
}

=== FILE: loggers.dfy ===
/**
 * The leveled logger: a threshold over an ordered set of levels, the line format, the
 * test- and page-specific helpers, and the single shared instance.
 *
 * Each logging call is a function of the logger's threshold that yields the line it
 * would write (to the console and to the day's log file), or `None` when the level is
 * filtered out. The timestamp is a parameter, and a payload is given by its JSON text.
 */
module Loggers {
  import opened Wrappers
  import Strings

  /** `LogLevel`: DEBUG = 0 < INFO = 1 < WARN = 2 < ERROR = 3 < NONE = 4. */
  datatype LogLevel = DEBUG | INFO | WARN | ERROR | NONE

  /** The enum's numeric value. */
  function Rank(level: LogLevel): (r: nat)
    ensures level == DEBUG ==> r == 0
    ensures level == INFO ==> r == 1
    ensures level == WARN ==> r == 2
    ensures level == ERROR ==> r == 3
    ensures level == NONE ==> r == 4
  {
    match level
    case DEBUG => 0
    case INFO => 1
    case WARN => 2
    case ERROR => 3
    case NONE => 4
  }

  /** The levels are totally ordered by their values: distinct levels have distinct values. */
  lemma RankInjective(a: LogLevel, b: LogLevel)
    ensures Rank(a) == Rank(b) <==> a == b
  {
  }

  /** The name written between brackets. */
  function Name(level: LogLevel): string
  {
    match level
    case DEBUG => "DEBUG"
    case INFO => "INFO"
    case WARN => "WARN"
    case ERROR => "ERROR"
    case NONE => "NONE"
  }

  /** Whether a logger whose threshold is `threshold` writes a message at `level`. */
  predicate Emits(threshold: LogLevel, level: LogLevel)
  {
    Rank(threshold) <= Rank(level)
  }

  /** Raising the threshold never lets more through. */
  lemma RaisingSilences(low: LogLevel, high: LogLevel, level: LogLevel)
    requires Rank(low) <= Rank(high)
    ensures Emits(high, level) ==> Emits(low, level)
    ensures Emits(low, level) && !Emits(high, level) ==> Rank(low) <= Rank(level) < Rank(high)
  {
  }

  /** The text after the level: the message, and the payload's JSON after a space when there is one. */
  function Body(message: string, data: Option<string>): string
  {
    if data.Some? then message + " " + data.value else message
  }

  /** `formatMessage`: `[timestamp] [LEVEL] message`, then ` <json>` for a truthy payload. */
  function FormatMessage(level: string, message: string, data: Option<string>, timestamp: string): string
  {
    "[" + timestamp + "] [" + level + "] " + Body(message, data)
  }

  /** The three parts of a written line. */
  datatype LogLine = LogLine(timestamp: string, level: string, text: string)

  /**
   * Reads a line back: the timestamp up to the first `]`, then ` [`, the level up to the
   * next `]`, then a space and the text.
   */
  function ParseLine(line: string): (r: Option<LogLine>)
    ensures r.Some? ==> ']' !in r.value.timestamp && ']' !in r.value.level
  {
    if !("[" <= line) then None
    else
      var a := line[1..];
      Strings.SplitHead(a, ']');
      var timestamp := Strings.Split(a, ']')[0];
      var b := a[|timestamp|..];
      if !("] [" <= b) then None
      else
        var c := b[3..];
        Strings.SplitHead(c, ']');
        var level := Strings.Split(c, ']')[0];
        var d := c[|level|..];
        if !("] " <= d) then None
        else Some(LogLine(timestamp, level, d[2..]))
  }

  /** The field before a separator is everything up to it. */
  lemma FieldBefore(p: string, tail: string, c: char)
    requires c !in p && |tail| > 0 && tail[0] == c
    ensures Strings.Split(p + tail, c)[0] == p
  {
    Strings.SplitPrefix(p, tail, c);
    assert Strings.Split(tail, c)[0] == "";
    assert p + "" == p;
  }

  /** A line of the written shape reads back as its three parts. */
  lemma ParseWritten(timestamp: string, level: string, text: string)
    requires ']' !in timestamp && ']' !in level
    ensures ParseLine("[" + timestamp + "] [" + level + "] " + text) == Some(LogLine(timestamp, level, text))
  {
    var line := "[" + timestamp + "] [" + level + "] " + text;
    var a := line[1..];
    assert a == timestamp + ("] [" + level + "] " + text);
    FieldBefore(timestamp, "] [" + level + "] " + text, ']');
    var b := a[|timestamp|..];
    assert b == "] [" + level + "] " + text;
    var c := b[3..];
    assert c == level + ("] " + text);
    FieldBefore(level, "] " + text, ']');
    var d := c[|level|..];
    assert d == "] " + text;
    assert d[2..] == text;
  }

  /**
   * A formatted line reads back as its timestamp, level and body, provided neither the
   * timestamp nor the level holds a `]` (an ISO timestamp and the level names do not).
   */
  lemma FormatThenParse(level: string, message: string, data: Option<string>, timestamp: string)
    requires ']' !in timestamp && ']' !in level
    ensures ParseLine(FormatMessage(level, message, data, timestamp)) == Some(LogLine(timestamp, level, Body(message, data)))
  {
    ParseWritten(timestamp, level, Body(message, data));
  }

  /** `String(n)` for an integer `n`. */
  function IntToString(n: int): (r: string)
    ensures |r| >= 1
    ensures n >= 0 <==> r[0] != '-'
    ensures r[0] != '-' ==> r == Strings.NatToString(n) && Strings.DigitsValue(r) == n
    ensures r[0] == '-' ==> |r| >= 2 && r[1] != '0' && Strings.DigitsValue(r[1..]) == -n
    ensures r[0] == '-' ==> r[1..] == Strings.NatToString(-n)
  {
    if n >= 0 then Strings.NatToString(n) else "-" + Strings.NatToString(-n)
  }

  /**
   * `r`, when written, reads back with timestamp `timestamp`, level `level` and text `text`
   * (for a timestamp without `]`, as ISO timestamps are).
   */
  predicate Writes(r: Option<string>, timestamp: string, level: LogLevel, text: string)
  {
    r.Some? && ']' !in timestamp ==> ParseLine(r.value) == Some(LogLine(timestamp, Name(level), text))
  }

  /** A logger; the line a call writes is computed from its threshold. */
  class Logger {
    var logLevel: LogLevel

    /** A fresh logger starts at INFO. */
    constructor ()
      ensures logLevel == INFO
    {
      logLevel := INFO;
    }

    /** `setLogLevel`: the threshold is the only state, and it becomes `level`. */
    method SetLogLevel(level: LogLevel)
      modifies this
      ensures logLevel == level
    {
      logLevel := level;
    }

    /** The line a call at `level` writes, if the threshold lets it through. */
    function Log(level: LogLevel, message: string, data: Option<string>, timestamp: string): (r: Option<string>)
      reads this
      ensures r.Some? <==> Emits(logLevel, level)
      ensures Writes(r, timestamp, level, Body(message, data))
    {
      if Emits(logLevel, level) then
        if ']' !in timestamp then
          FormatThenParse(Name(level), message, data, timestamp);
          Some(FormatMessage(Name(level), message, data, timestamp))
        else Some(FormatMessage(Name(level), message, data, timestamp))
      else None
    }

    /** `debug`: written only when the threshold is DEBUG. */
    function Debug(message: string, data: Option<string>, timestamp: string): (r: Option<string>)
      reads this
      ensures r.Some? <==> logLevel == DEBUG
      ensures Writes(r, timestamp, DEBUG, Body(message, data))
    {
      Log(DEBUG, message, data, timestamp)
    }

    /** `info`: written when the threshold is DEBUG or INFO. */
    function Info(message: string, data: Option<string>, timestamp: string): (r: Option<string>)
      reads this
      ensures r.Some? <==> logLevel in {DEBUG, INFO}
      ensures Writes(r, timestamp, INFO, Body(message, data))
    {
      Log(INFO, message, data, timestamp)
    }

    /** `warn`: written unless the threshold is ERROR or NONE. */
    function Warn(message: string, data: Option<string>, timestamp: string): (r: Option<string>)
      reads this
      ensures r.Some? <==> logLevel !in {ERROR, NONE}
      ensures Writes(r, timestamp, WARN, Body(message, data))
    {
      Log(WARN, message, data, timestamp)
    }

    /** `error`: written unless the threshold is NONE. */
    function Error(message: string, data: Option<string>, timestamp: string): (r: Option<string>)
      reads this
      ensures r.Some? <==> logLevel != NONE
      ensures Writes(r, timestamp, ERROR, Body(message, data))
    {
      Log(ERROR, message, data, timestamp)
    }

    /** `testStart`: an INFO line `🧪 Starting test: <name>`. */
    function TestStart(testName: string, timestamp: string): (r: Option<string>)
      reads this
      ensures r.Some? <==> Emits(logLevel, INFO)
      ensures Writes(r, timestamp, INFO, "\U{1F9EA} Starting test: " + testName)
    {
      Info("\U{1F9EA} Starting test: " + testName, None, timestamp)
    }

    /** `testEnd`: an INFO line `✅ Test completed: <name> (<duration>ms)`. */
    function TestEnd(testName: string, duration: int, timestamp: string): (r: Option<string>)
      reads this
      ensures r.Some? <==> Emits(logLevel, INFO)
      ensures Writes(r, timestamp, INFO, "\U{2705} Test completed: " + testName + " (" + IntToString(duration) + "ms)")
    {
      Info("\U{2705} Test completed: " + testName + " (" + IntToString(duration) + "ms)", None, timestamp)
    }

    /** `testFail`: an ERROR line `❌ Test failed: <name>` with `{ error }` as payload, whose JSON text is `errorJson`. */
    function TestFail(testName: string, errorJson: string, timestamp: string): (r: Option<string>)
      reads this
      ensures r.Some? <==> Emits(logLevel, ERROR)
      ensures Writes(r, timestamp, ERROR, "\U{274C} Test failed: " + testName + " " + errorJson)
    {
      Error("\U{274C} Test failed: " + testName, Some(errorJson), timestamp)
    }

    /** `step`: an INFO line `📝 Step: <name>`. */
    function Step(stepName: string, timestamp: string): (r: Option<string>)
      reads this
      ensures r.Some? <==> Emits(logLevel, INFO)
      ensures Writes(r, timestamp, INFO, "\U{1F4DD} Step: " + stepName)
    {
      Info("\U{1F4DD} Step: " + stepName, None, timestamp)
    }

    /** `assertion`: a passed assertion is a DEBUG line, a failed one a WARN line. */
    function Assertion(description: string, result: bool, timestamp: string): (r: Option<string>)
      reads this
      ensures r.Some? <==> Emits(logLevel, if result then DEBUG else WARN)
      ensures result ==> Writes(r, timestamp, DEBUG, "\U{2705} Assertion passed: " + description)
      ensures !result ==> Writes(r, timestamp, WARN, "\U{26A0}\U{FE0F} Assertion failed: " + description)
    {
      if result then Debug("\U{2705} Assertion passed: " + description, None, timestamp)
      else Warn("\U{26A0}\U{FE0F} Assertion failed: " + description, None, timestamp)
    }

    /** `pageAction`: a DEBUG line naming the action, and ` on <element>` for a non-empty element. */
    function PageAction(action: string, element: Option<string>, timestamp: string): (r: Option<string>)
      reads this
      ensures r.Some? <==> Emits(logLevel, DEBUG)
      ensures Writes(r, timestamp, DEBUG, PageActionText(action, element))
    {
      Debug(PageActionText(action, element), None, timestamp)
    }

    /** `apiRequest`: a DEBUG line `🌐 API <method>: <url>` with the payload. */
    function ApiRequest(verb: string, url: string, data: Option<string>, timestamp: string): (r: Option<string>)
      reads this
      ensures r.Some? <==> Emits(logLevel, DEBUG)
      ensures Writes(r, timestamp, DEBUG, Body("\U{1F310} API " + verb + ": " + url, data))
    {
      Debug("\U{1F310} API " + verb + ": " + url, data, timestamp)
    }

    /** `apiResponse`: a DEBUG line `📡 API Response (<status>): <url>` with the payload. */
    function ApiResponse(status: int, url: string, data: Option<string>, timestamp: string): (r: Option<string>)
      reads this
      ensures r.Some? <==> Emits(logLevel, DEBUG)
      ensures Writes(r, timestamp, DEBUG, Body("\U{1F4E1} API Response (" + IntToString(status) + "): " + url, data))
    {
      Debug("\U{1F4E1} API Response (" + IntToString(status) + "): " + url, data, timestamp)
    }
  }

  /** The message of `pageAction`. */
  function PageActionText(action: string, element: Option<string>): (r: string)
    ensures Truthy(element) ==> r == "\U{1F5B1}\U{FE0F} Page action: " + action + " on " + element.value
    ensures !Truthy(element) ==> r == "\U{1F5B1}\U{FE0F} Page action: " + action
  {
    "\U{1F5B1}\U{FE0F} Page action: " + action + (if Truthy(element) then " on " + element.value else "")
  }

  /** With the threshold at NONE nothing is written, whatever the call. */
  lemma NoneSilencesAll(l: Logger, level: LogLevel, message: string, data: Option<string>, timestamp: string)
    requires l.logLevel == NONE
    ensures l.Log(level, message, data, timestamp).Some? <==> level == NONE
    ensures l.Debug(message, data, timestamp) == None && l.Info(message, data, timestamp) == None
    ensures l.Warn(message, data, timestamp) == None && l.Error(message, data, timestamp) == None
  {
  }

  /** The static side of `Logger`: the lazily filled `instance` slot. */
  class Registry {
    var instance: Logger?

    /** Before any call the slot is empty. */
    constructor ()
      ensures instance == null
    {
      instance := null;
    }

    /** `getInstance`: creates the logger on first use, and hands out that one ever after. */
    method GetInstance() returns (l: Logger)
      modifies this
      ensures instance == l
      ensures old(instance) != null ==> l == old(instance)
      ensures old(instance) == null ==> fresh(l) && l.logLevel == INFO
    {
      if instance == null {
        instance := new Logger();
      }
      l := instance;
    }
  }

  /**
   * Loading the module: `logger` is `getInstance()`'s logger, and later calls of
   * `getInstance` return that same logger, with any threshold set on it in between.
   */
  method LoadAndGetAgain(level: LogLevel) returns (logger: Logger, later: Logger)
    ensures later == logger && logger.logLevel == level
  {
    var registry := new Registry();
    logger := registry.GetInstance();
    logger.SetLogLevel(level);
    later := registry.GetInstance();
  }
}

=== FILE: retry.dfy ===
/**
 * `BasePage.click`, the only operation with a retry budget, and `BasePage.clear`, which
 * clicks the input, clears it natively and falls back to the keyboard.
 */
module Retry {
  import opened Wrappers
  import opened Actions

  /** The fixed pause between failed attempts, handed to `waitForTimeoutInSeconds`. */
  const RetryPauseSeconds: int := 3

  /** The events of the attempts answered by `ws`, with one pause between neighbouring attempts. */
  function RetryEvents(e: Settings, ws: seq<World>): seq<Event>
  {
    if |ws| == 0 then []
    else if |ws| == 1 then Attempt(e, ws[0]).events
    else RetryEvents(e, ws[..|ws| - 1]) + [Slept(SecondsToMillis(RetryPauseSeconds))] + Attempt(e, ws[|ws| - 1]).events
  }

  /** The events of the first k + 1 attempts extend those of the first k by a pause and attempt k + 1. */
  lemma RetryEventsStep(e: Settings, ws: seq<World>, k: nat)
    requires 1 <= k < |ws|
    ensures RetryEvents(e, ws[..k + 1]) == RetryEvents(e, ws[..k]) + [Slept(3000)] + Attempt(e, ws[k]).events
  {
    assert ws[..k + 1][..k] == ws[..k];
  }

  /** The events of the first attempt alone. */
  lemma RetryEventsFirst(e: Settings, ws: seq<World>)
    requires 1 <= |ws|
    ensures RetryEvents(e, ws[..1]) == Attempt(e, ws[0]).events
  {
  }

  /** The number of pauses among the events. */
  function Pauses(evs: seq<Event>): nat
  {
    if |evs| == 0 then 0 else Pauses(evs[..|evs| - 1]) + (if evs[|evs| - 1].Slept? then 1 else 0)
  }

  lemma {:induction false} PausesAppend(a: seq<Event>, b: seq<Event>)
    ensures Pauses(a + b) == Pauses(a) + Pauses(b)
    decreases |b|
  {
    if |b| == 0 {
      assert a + b == a;
    } else {
      assert (a + b)[..|a + b| - 1] == a + b[..|b| - 1];
      PausesAppend(a, b[..|b| - 1]);
    }
  }

  lemma {:induction false} NoPauses(evs: seq<Event>)
    requires forall k :: 0 <= k < |evs| ==> !evs[k].Slept?
    ensures Pauses(evs) == 0
    decreases |evs|
  {
    if |evs| > 0 {
      NoPauses(evs[..|evs| - 1]);
    }
  }

  /**
   * `click` pauses between failed attempts and never after the last one: n attempts
   * carry n - 1 pauses of 3000 ms, and the last event is not a pause.
   */
  lemma PausesBetweenAttempts(e: Settings, ws: seq<World>)
    requires |ws| >= 1
    ensures Pauses(RetryEvents(e, ws)) == |ws| - 1
    ensures forall k :: 0 <= k < |RetryEvents(e, ws)| && RetryEvents(e, ws)[k].Slept? ==>
      RetryEvents(e, ws)[k] == Slept(3000)
    ensures |RetryEvents(e, ws)| >= 1 && !RetryEvents(e, ws)[|RetryEvents(e, ws)| - 1].Slept?
  {
    PauseCount(e, ws);
    OnlyRetryPauses(e, ws);
    var last := Attempt(e, ws[|ws| - 1]).events;
    AttemptEvents(e, ws[|ws| - 1]);
    if |ws| > 1 {
      assert RetryEvents(e, ws) == RetryEvents(e, ws[..|ws| - 1]) + [Slept(3000)] + last;
    }
  }

  /** n attempts carry n - 1 pauses. */
  lemma {:induction false} PauseCount(e: Settings, ws: seq<World>)
    requires |ws| >= 1
    ensures Pauses(RetryEvents(e, ws)) == |ws| - 1
    decreases |ws|
  {
    var last := Attempt(e, ws[|ws| - 1]).events;
    AttemptEvents(e, ws[|ws| - 1]);
    NoPauses(last);
    if |ws| > 1 {
      var before := RetryEvents(e, ws[..|ws| - 1]);
      PauseCount(e, ws[..|ws| - 1]);
      PausesAppend(before, [Slept(3000)]);
      PausesAppend(before + [Slept(3000)], last);
    }
  }

  /** Every pause between attempts is the 3000 ms retry pause. */
  lemma {:induction false} OnlyRetryPauses(e: Settings, ws: seq<World>)
    ensures forall k :: 0 <= k < |RetryEvents(e, ws)| && RetryEvents(e, ws)[k].Slept? ==>
      RetryEvents(e, ws)[k] == Slept(3000)
    decreases |ws|
  {
    if |ws| >= 1 {
      var last := Attempt(e, ws[|ws| - 1]).events;
      AttemptEvents(e, ws[|ws| - 1]);
      if |ws| > 1 {
        var before := RetryEvents(e, ws[..|ws| - 1]);
        OnlyRetryPauses(e, ws[..|ws| - 1]);
        var all := before + [Slept(3000)] + last;
        forall k | 0 <= k < |all| ensures all[k].Slept? ==> all[k] == Slept(3000) {
          if k < |before| {
            assert all[k] == before[k];
          } else if k > |before| {
            assert all[k] == last[k - |before| - 1];
          }
        }
      }
    }
  }

  /** The verdict `click` must reach: no attempt is due, or one of the due attempts gets through. */
  predicate ClickSucceeds(e: Settings, ws: seq<World>)
    requires e.retries <= |ws|
  {
    e.retries <= 0 || exists i :: 0 <= i < e.retries && AttemptSucceeds(e, ws[i])
  }

  /** What `click` returns, with the number of attempts it made. */
  datatype ClickVerdict = ClickVerdict(outcome: Outcome<Failure>, attempts: nat)

  /**
   * What `click` returns from attempt number `attempt` on: no attempt at all once the
   * budget is spent, otherwise some attempt between `attempt` and `retries`.
   */
  function ClickFrom(e: Settings, ws: seq<World>, attempt: nat): (v: ClickVerdict)
    requires 1 <= attempt && e.retries <= |ws|
    requires attempt <= e.retries || attempt == 1
    ensures v.attempts == 0 <==> e.retries < attempt
    ensures v.attempts > 0 ==> attempt <= v.attempts <= e.retries
    decreases e.retries - attempt
  {
    if attempt > e.retries then ClickVerdict(Pass, 0)
    else if AttemptSucceeds(e, ws[attempt - 1]) then ClickVerdict(Pass, attempt)
    else if attempt == e.retries then ClickVerdict(Fail(ClickFailedAfter(e.retries, AttemptError(e, ws[attempt - 1]))), attempt)
    else ClickFrom(e, ws, attempt + 1)
  }

  /** The result of a whole `click`: no attempt with `retries <= 0`, at most `retries` otherwise. */
  function ClickResult(e: Settings, ws: seq<World>): (v: ClickVerdict)
    requires e.retries <= |ws|
    ensures v.attempts == 0 <==> e.retries <= 0
    ensures v.attempts <= |ws| && (e.retries > 0 ==> 1 <= v.attempts <= e.retries)
  {
    ClickFrom(e, ws, 1)
  }

  /** From attempt `attempt` on, after failed attempts only: a pass exactly when a due attempt gets through. */
  lemma {:induction false} ClickFromPasses(e: Settings, ws: seq<World>, attempt: nat)
    requires 1 <= attempt && e.retries <= |ws|
    requires attempt <= e.retries || attempt == 1
    requires forall i :: 0 <= i < attempt - 1 ==> !AttemptSucceeds(e, ws[i])
    ensures ClickFrom(e, ws, attempt).outcome.Pass? <==> ClickSucceeds(e, ws)
    decreases e.retries - attempt
  {
    if attempt <= e.retries && !AttemptSucceeds(e, ws[attempt - 1]) {
      if attempt == e.retries {
        assert forall i :: 0 <= i < e.retries ==> !AttemptSucceeds(e, ws[i]);
      } else {
        ClickFromPasses(e, ws, attempt + 1);
      }
    }
  }

  /** From attempt `attempt` on: every attempt before the last one made failed, and a pass comes from the last one. */
  lemma {:induction false} ClickFromStops(e: Settings, ws: seq<World>, attempt: nat)
    requires 1 <= attempt && e.retries <= |ws|
    requires attempt <= e.retries || attempt == 1
    requires forall i :: 0 <= i < attempt - 1 ==> !AttemptSucceeds(e, ws[i])
    ensures var v := ClickFrom(e, ws, attempt);
      (forall i :: 0 <= i < v.attempts - 1 ==> !AttemptSucceeds(e, ws[i])) &&
      (v.outcome.Pass? && v.attempts > 0 ==> AttemptSucceeds(e, ws[v.attempts - 1]))
    decreases e.retries - attempt
  {
    if attempt < e.retries && !AttemptSucceeds(e, ws[attempt - 1]) {
      ClickFromStops(e, ws, attempt + 1);
    }
  }

  /** From attempt `attempt` on: a failure is the failure of attempt `retries`, reported with its error. */
  lemma {:induction false} ClickFromFails(e: Settings, ws: seq<World>, attempt: nat)
    requires 1 <= attempt && e.retries <= |ws|
    requires attempt <= e.retries || attempt == 1
    ensures var v := ClickFrom(e, ws, attempt);
      v.outcome.Fail? ==>
        v.attempts == e.retries && v.outcome.error == ClickFailedAfter(e.retries, AttemptError(e, ws[e.retries - 1]))
    decreases e.retries - attempt
  {
    if attempt < e.retries && !AttemptSucceeds(e, ws[attempt - 1]) {
      ClickFromFails(e, ws, attempt + 1);
    }
  }

  /**
   * `click` as a whole: it passes exactly when one of the due attempts gets through; it
   * returns at the first such attempt; it fails only when attempt number `retries` fails,
   * with that attempt's error.
   */
  lemma ClickResultSpec(e: Settings, ws: seq<World>)
    requires e.retries <= |ws|
    ensures ClickResult(e, ws).outcome.Pass? <==> ClickSucceeds(e, ws)
    ensures var v := ClickResult(e, ws);
      (forall i :: 0 <= i < v.attempts - 1 ==> !AttemptSucceeds(e, ws[i])) &&
      (v.outcome.Pass? && v.attempts > 0 ==> AttemptSucceeds(e, ws[v.attempts - 1]))
    ensures var v := ClickResult(e, ws);
      v.outcome.Fail? ==>
        v.attempts == e.retries && v.outcome.error == ClickFailedAfter(e.retries, AttemptError(e, ws[e.retries - 1]))
  {
    ClickFromPasses(e, ws, 1);
    ClickFromStops(e, ws, 1);
    ClickFromFails(e, ws, 1);
  }

  /**
   * `click`: attempts 1..retries, each re-resolving the element (`worlds[i]` answers
   * attempt i + 1). It returns at the first attempt that gets through; a failed attempt
   * before the last is followed by a 3-second pause; the failure of attempt `retries`
   * raises the one error the caller sees. With `retries <= 0` nothing is attempted.
   */
  method Click(o: ElementOptions, worlds: seq<World>) returns (r: Outcome<Failure>, attempts: nat, events: seq<Event>)
    requires Resolve(o).retries <= |worlds|
    ensures ClickVerdict(r, attempts) == ClickResult(Resolve(o), worlds)
    ensures events == RetryEvents(Resolve(o), worlds[..attempts])
  {
    var e := Resolve(o);
    events := [];
    var attempt := 1;
    while attempt <= e.retries
      invariant 1 <= attempt && (attempt <= e.retries || attempt == 1)
      invariant ClickFrom(e, worlds, attempt) == ClickResult(e, worlds)
      invariant attempt == 1 ==> events == []
      invariant attempt > 1 ==> events == RetryEvents(e, worlds[..attempt - 1]) + [Slept(3000)]
    {
      var w := worlds[attempt - 1];
      var run := Attempt(e, w);
      AttemptOutcome(e, w);
      if attempt > 1 {
        RetryEventsStep(e, worlds, attempt - 1);
      } else {
        RetryEventsFirst(e, worlds);
      }
      if run.outcome.Pass? {
        r, attempts, events := Pass, attempt, events + run.events;
        return;
      }
      if attempt == e.retries {
        r, attempts, events := Fail(ClickFailedAfter(e.retries, run.outcome.error)), attempt, events + run.events;
        return;
      }
      events := events + run.events + [Slept(SecondsToMillis(RetryPauseSeconds))];
      attempt := attempt + 1;
    }
    r, attempts := Pass, 0;
  }

  /** The engine's answers for one call of `clear`. */
  datatype ClearWorld = ClearWorld(
    element: Element,                 // what the initial visibility wait observes
    clicks: seq<World>,               // the answers for the attempts of the nested `click`
    clearSucceeds: bool,              // the native `locator.clear`
    valueAfterClear: Option<string>,  // `inputValue()` after the native clear; `None` when it throws
    selectAllSucceeds: bool,          // `keyboard.press('Control+a')`
    deleteSucceeds: bool,             // `keyboard.press('Delete')`
    valueAfterKeys: Option<string>)   // `inputValue()` after the keyboard fallback; `None` when it throws

  /** `clear` reaches the first value read: visible, clicked and natively cleared. */
  predicate ClearReachesCheck(o: ElementOptions, w: ClearWorld)
    requires Resolve(o).retries <= |w.clicks|
  {
    w.element.visible && ClickSucceeds(Resolve(o), w.clicks) && w.clearSucceeds
  }

  /** `clear` reaches the second value read: the first read answered a value and both keys were pressed. */
  predicate ClearReachesRecheck(o: ElementOptions, w: ClearWorld)
    requires Resolve(o).retries <= |w.clicks|
  {
    ClearReachesCheck(o, w) && Truthy(w.valueAfterClear) && w.selectAllSucceeds && w.deleteSucceeds
  }

  /**
   * `clear`: wait visible, click (with the full retry budget), clear natively, read the
   * value back; only a non-empty value triggers the keyboard fallback, after which the
   * value is read again and one still present is reported verbatim. A read that throws
   * fails the call. Every error is re-thrown in the clearing context.
   */
  method Clear(o: ElementOptions, w: ClearWorld) returns (r: Outcome<Failure>, fallback: bool)
    requires Resolve(o).retries <= |w.clicks|
    ensures fallback <==> ClearReachesCheck(o, w) && Truthy(w.valueAfterClear)
    ensures r.Pass? <==>
      (ClearReachesCheck(o, w) &&
       (w.valueAfterClear == Some("") ||
        (ClearReachesRecheck(o, w) && w.valueAfterKeys == Some(""))))
    ensures ClearReachesCheck(o, w) && w.valueAfterClear.None? ==> r == Fail(While(Clearing, ActionFailed(ReadValue)))
    ensures ClearReachesRecheck(o, w) && w.valueAfterKeys.None? ==> r == Fail(While(Clearing, ActionFailed(ReadValue)))
    ensures ClearReachesRecheck(o, w) && Truthy(w.valueAfterKeys) ==>
      r == Fail(While(Clearing, ValueStillPresent(w.valueAfterKeys.value)))
    ensures r.Fail? ==> r.error.While? && r.error.op == Clearing
  {
    var e := Resolve(o);
    fallback := false;
    var waited := WaitForElement(w.element, WaitOptions(Some(e.timeout), Some(Visible)));
    if waited.Fail? {
      return Fail(While(Clearing, waited.error)), false;
    }
    var clicked, _, _ := Click(o, w.clicks);
    ClickResultSpec(e, w.clicks);
    if clicked.Fail? {
      return Fail(While(Clearing, clicked.error)), false;
    }
    if !w.clearSucceeds {
      return Fail(While(Clearing, ActionFailed(ClearValue(e.timeout)))), false;
    }
    if w.valueAfterClear.None? {
      return Fail(While(Clearing, ActionFailed(ReadValue))), false;
    }
    if w.valueAfterClear.value != "" {
      fallback := true;
      if !w.selectAllSucceeds {
        return Fail(While(Clearing, ActionFailed(Press("Control+a")))), true;
      }
      if !w.deleteSucceeds {
        return Fail(While(Clearing, ActionFailed(Press("Delete")))), true;
      }
      if w.valueAfterKeys.None? {
        return Fail(While(Clearing, ActionFailed(ReadValue))), true;
      }
      if w.valueAfterKeys.value != "" {
        return Fail(While(Clearing, ValueStillPresent(w.valueAfterKeys.value))), true;
      }
    }
    r := Pass;
  }
}

=== FILE: strings.dfy ===
/**
 * The JavaScript string operations the façade, the logger and the CSV writer rely on:
 * `includes`, `Array.prototype.join`, `split` on a one-character separator, and the
 * decimal rendering of a non-negative number.
 */
module Strings {

  /** `key` occurs in `s` starting at position `i`. */
  predicate OccursAt(s: string, key: string, i: nat)
  {
    i + |key| <= |s| && s[i..i + |key|] == key
  }

  /** `s.includes(key)`: the empty key is included in every string. */
  predicate Includes(s: string, key: string)
    decreases |s|
  {
    key <= s || (|s| > 0 && Includes(s[1..], key))
  }

  /** An occurrence at position 0 is a prefix. */
  lemma OccursAtStart(s: string, key: string)
    ensures OccursAt(s, key, 0) <==> key <= s
  {
    if key <= s { assert s[..|key|] == key; }
  }

  /** `Includes` finds exactly the substring occurrences. */
  lemma {:induction false} IncludesIff(s: string, key: string)
    ensures Includes(s, key) <==> exists i :: 0 <= i <= |s| && OccursAt(s, key, i)
    decreases |s|
  {
    OccursAtStart(s, key);
    if key <= s {
      assert OccursAt(s, key, 0);
    } else if |s| > 0 {
      IncludesIff(s[1..], key);
      if Includes(s[1..], key) {
        var i :| 0 <= i <= |s[1..]| && OccursAt(s[1..], key, i);
        assert s[1..][i..i + |key|] == s[i + 1..i + 1 + |key|];
        assert OccursAt(s, key, i + 1);
      }
      forall i | 1 <= i <= |s| && OccursAt(s, key, i)
        ensures OccursAt(s[1..], key, i - 1)
      {
        assert s[1..][i - 1..i - 1 + |key|] == s[i..i + |key|];
      }
    }
  }

  /** `parts.join(sep)`: the empty array joins to the empty string. */
  function Join(parts: seq<string>, sep: string): string
  {
    if |parts| == 0 then ""
    else if |parts| == 1 then parts[0]
    else parts[0] + sep + Join(parts[1..], sep)
  }

  /** `s.split(c)` for a one-character separator: always at least one field. */
  function Split(s: string, c: char): (r: seq<string>)
    ensures |r| >= 1
    decreases |s|
  {
    if |s| == 0 then [""]
    else if s[0] == c then [""] + Split(s[1..], c)
    else
      var rest := Split(s[1..], c);
      [[s[0]] + rest[0]] + rest[1..]
  }

  /** A prefix free of the separator is glued onto the first field. */
  lemma {:induction false} SplitPrefix(p: string, tail: string, c: char)
    requires c !in p
    ensures Split(p + tail, c) == [p + Split(tail, c)[0]] + Split(tail, c)[1..]
    decreases |p|
  {
    if |p| > 0 {
      assert (p + tail)[1..] == p[1..] + tail;
      assert (p + tail)[0] == p[0] != c;
      SplitPrefix(p[1..], tail, c);
      assert [p[0]] + (p[1..] + Split(tail, c)[0]) == p + Split(tail, c)[0];
    } else {
      assert p + tail == tail;
      var r := Split(tail, c);
      assert p + r[0] == r[0];
      assert r == [r[0]] + r[1..];
    }
  }

  /** Splitting undoes joining when no part contains the separator. */
  lemma {:induction false} SplitJoin(parts: seq<string>, c: char)
    requires |parts| >= 1
    requires forall k :: 0 <= k < |parts| ==> c !in parts[k]
    ensures Split(Join(parts, [c]), c) == parts
    decreases |parts|
  {
    if |parts| == 1 {
      SplitPrefix(parts[0], "", c);
      assert parts[0] + "" == parts[0];
    } else {
      var tail := [c] + Join(parts[1..], [c]);
      assert Join(parts, [c]) == parts[0] + tail;
      SplitPrefix(parts[0], tail, c);
      assert tail[0] == c && tail[1..] == Join(parts[1..], [c]);
      SplitJoin(parts[1..], c);
      assert Split(tail, c) == [""] + parts[1..];
      assert parts[0] + "" == parts[0];
    }
  }

  /** The first field of `s.split(c)`: the longest prefix of `s` without `c`. */
  lemma {:induction false} SplitHead(s: string, c: char)
    ensures Split(s, c)[0] <= s && c !in Split(s, c)[0]
    ensures |Split(s, c)[0]| < |s| ==> s[|Split(s, c)[0]|] == c
    decreases |s|
  {
    if |s| > 0 && s[0] != c {
      SplitHead(s[1..], c);
    }
  }

  /** The number of occurrences of `c` in `s`. */
  function Count(s: string, c: char): nat
  {
    if |s| == 0 then 0 else Count(s[..|s| - 1], c) + (if s[|s| - 1] == c then 1 else 0)
  }

  lemma {:induction false} CountAppend(a: string, b: string, c: char)
    ensures Count(a + b, c) == Count(a, c) + Count(b, c)
    decreases |b|
  {
    if |b| == 0 {
      assert a + b == a;
    } else {
      assert (a + b)[..|a + b| - 1] == a + b[..|b| - 1];
      CountAppend(a, b[..|b| - 1], c);
    }
  }

  lemma {:induction false} CountZero(s: string, c: char)
    ensures Count(s, c) == 0 <==> c !in s
    decreases |s|
  {
    if |s| > 0 {
      CountZero(s[..|s| - 1], c);
      assert s == s[..|s| - 1] + [s[|s| - 1]];
    }
  }

  /** Total occurrences of `c` over all parts. */
  function CountAll(parts: seq<string>, c: char): nat
  {
    if |parts| == 0 then 0 else Count(parts[0], c) + CountAll(parts[1..], c)
  }

  /** Joining adds one separator's worth of occurrences between neighbouring parts. */
  lemma {:induction false} CountJoin(parts: seq<string>, sep: string, c: char)
    requires |parts| >= 1
    ensures Count(Join(parts, sep), c) == CountAll(parts, c) + (|parts| - 1) * Count(sep, c)
    decreases |parts|
  {
    if |parts| > 1 {
      var k, n, rest := Count(sep, c), |parts|, Join(parts[1..], sep);
      assert Join(parts, sep) == parts[0] + sep + rest;
      CountJoin(parts[1..], sep, c);
      CountAppend(parts[0], sep, c);
      CountAppend(parts[0] + sep, rest, c);
      OneMore(n - 1, k);
    }
  }

  lemma OneMore(m: int, k: int)
    ensures m * k == k + (m - 1) * k
  {
  }

  /** `CountAll` is zero exactly when no part contains `c`. */
  lemma {:induction false} CountAllZero(parts: seq<string>, c: char)
    ensures CountAll(parts, c) == 0 <==> forall k :: 0 <= k < |parts| ==> c !in parts[k]
    decreases |parts|
  {
    if |parts| > 0 {
      CountZero(parts[0], c);
      CountAllZero(parts[1..], c);
      if forall k :: 0 <= k < |parts[1..]| ==> c !in parts[1..][k] {
        if c !in parts[0] {
          forall k | 0 <= k < |parts| ensures c !in parts[k] {
            if k > 0 { assert parts[k] == parts[1..][k - 1]; }
          }
        }
      } else {
        var k :| 0 <= k < |parts[1..]| && c in parts[1..][k];
        assert c in parts[k + 1];
      }
    }
  }

  /** The number a string of decimal digits denotes, most significant digit first. */
  function DigitsValue(s: string): int
  {
    if s == [] then 0 else DigitsValue(s[..|s| - 1]) * 10 + (s[|s| - 1] as int - '0' as int)
  }

  /**
   * The decimal digits of `n`, as `String(n)` writes a non-negative integer: digits only,
   * denoting `n`, with no leading zero.
   */
  function NatToString(n: nat): (r: string)
    ensures |r| >= 1 && forall k :: 0 <= k < |r| ==> '0' <= r[k] <= '9'
    ensures DigitsValue(r) == n
    ensures r[0] == '0' <==> n == 0
    ensures n == 0 ==> r == "0"
  {
    var d := ['0' + ((n % 10) as char)];
    if n < 10 then d else
      var r := NatToString(n / 10) + d;
      assert r[..|r| - 1] == NatToString(n / 10);
      r
  }
}

=== FILE: tabs.dfy ===
/**
 * The multi-page state of `BasePage`: the pages of the browser context and the one the
 * façade currently drives (`this.page`), with navigation and the open, switch and close
 * operations.
 *
 * Every page the context has created is kept, in creation order, with a `closed` flag;
 * a page handle is its position in that sequence. The context's page list
 * (`context().pages()`) is the open pages in order, and the active handle may point at a
 * closed page.
 */
module Tabs {
  import opened Wrappers
  import Strings
  import Actions

  /** A page as the façade sees it. */
  datatype Page = Page(title: string, url: string, closed: bool)

  /**
   * The engine's answer to one `goto`, with the title and URL the page ends up with:
   * `Loaded` when the document loaded (the URL is the final one, after resolution against
   * the base URL and redirects); `Stranded` when the navigation threw and left the page
   * wherever the engine got to, which may be where it was, a blank page or an error page.
   */
  datatype Landing = Loaded(title: string, url: string) | Stranded(title: string, url: string)

  /** The open page a `goto` leaves behind. */
  function Landed(answer: Landing): Page
  {
    Page(answer.title, answer.url, false)
  }

  datatype LoadState = Load | DomContentLoaded | NetworkIdle

  /** `NavigationOptions`. */
  datatype NavigationOptions = NavigationOptions(timeout: Option<int>, waitUntil: Option<LoadState>)

  const NoNavigationOptions: NavigationOptions := NavigationOptions(None, None)

  /** The effective navigation settings of one call. */
  datatype Navigation = Navigation(timeout: int, waitUntil: LoadState)

  /** `timeout ?? defaultTimeout` and `waitUntil ?? fallback`; the fallback is `domcontentloaded` for `navigateTo` and `networkidle` elsewhere. */
  function ResolveNavigation(o: NavigationOptions, fallback: LoadState): (n: Navigation)
    ensures o.timeout.Some? ==> n.timeout == o.timeout.value
    ensures o.timeout.None? ==> n.timeout == Actions.DefaultTimeout
    ensures o.waitUntil.Some? ==> n.waitUntil == o.waitUntil.value
    ensures o.waitUntil.None? ==> n.waitUntil == fallback
  {
    Navigation(OrElse(o.timeout, Actions.DefaultTimeout), OrElse(o.waitUntil, fallback))
  }

  /**
   * The argument of `switchToPageByUrl`: a substring, or a regular expression given by
   * its string form (`/source/flags`) and its `test`.
   */
  datatype UrlPattern = Substring(text: string) | Pattern(written: string, test: string -> bool)

  predicate UrlMatches(p: UrlPattern, url: string)
  {
    match p
    case Substring(t) => Strings.Includes(url, t)
    case Pattern(_, test) => test(url)
  }

  /** The pattern as it is written into the error message. */
  function PatternText(p: UrlPattern): string
  {
    match p
    case Substring(t) => t
    case Pattern(written, _) => written
  }

  /** The errors of the page operations. */
  datatype PageError =
    | IndexOutOfRange(index: int, available: nat)        // `switchToPage`, `closePage`
    | NoTitleMatch(key: string, available: nat)          // `switchToPageByName`
    | NoUrlMatch(pattern: string)                        // `switchToPageByUrl`
    | OpenFailed(url: string)                            // `openInNewTab`
    | OpenAndSwitchFailed(url: string, cause: PageError) // `openInNewTabAndSwitch`

  /** The open pages' handles in creation order: what `context().pages()` lists. */
  function OpenIn(ps: seq<Page>): (r: seq<nat>)
    ensures forall k :: 0 <= k < |r| ==> r[k] < |ps|
  {
    if ps == [] then []
    else OpenIn(ps[..|ps| - 1]) + (if ps[|ps| - 1].closed then [] else [|ps| - 1])
  }

  /** The list holds exactly the open pages, each once, in creation order. */
  lemma {:induction false} OpenInSpec(ps: seq<Page>)
    ensures forall k :: 0 <= k < |OpenIn(ps)| ==> !ps[OpenIn(ps)[k]].closed
    ensures forall h :: 0 <= h < |ps| && !ps[h].closed ==> h in OpenIn(ps)
    ensures forall j, k :: 0 <= j < k < |OpenIn(ps)| ==> OpenIn(ps)[j] < OpenIn(ps)[k]
  {
    if ps != [] {
      var front := ps[..|ps| - 1];
      OpenInSpec(front);
      var r, rf := OpenIn(ps), OpenIn(front);
      assert r == rf + (if ps[|ps| - 1].closed then [] else [|ps| - 1]);
      forall k | 0 <= k < |r|
        ensures !ps[r[k]].closed
      {
        if k < |rf| {
          assert r[k] == rf[k] && ps[rf[k]] == front[rf[k]];
        }
      }
      forall h | 0 <= h < |ps| && !ps[h].closed
        ensures h in r
      {
        if h < |ps| - 1 {
          assert front[h] == ps[h];
          var i :| 0 <= i < |rf| && rf[i] == h;
          assert r[i] == h;
        } else {
          assert r[|r| - 1] == h;
        }
      }
      forall j, k | 0 <= j < k < |r|
        ensures r[j] < r[k]
      {
        if k >= |rf| {
          assert r[j] == rf[j] < |front|;
        }
      }
    }
  }

  /** A new page is listed last. */
  lemma OpenInAppend(ps: seq<Page>, p: Page)
    ensures OpenIn(ps + [p]) == OpenIn(ps) + (if p.closed then [] else [|ps|])
  {
    assert (ps + [p])[..|ps|] == ps;
  }

  /** When no page is open, nothing is listed. */
  lemma {:induction false} NoneOpen(ps: seq<Page>)
    requires forall k :: 0 <= k < |ps| ==> ps[k].closed
    ensures OpenIn(ps) == []
  {
    if ps != [] {
      NoneOpen(ps[..|ps| - 1]);
    }
  }

  /** When exactly one page is open, the list is that page alone. */
  lemma {:induction false} OnlyOpen(ps: seq<Page>, h: nat)
    requires h < |ps| && !ps[h].closed
    requires forall k :: 0 <= k < |ps| && !ps[k].closed ==> k == h
    ensures OpenIn(ps) == [h]
  {
    var front := ps[..|ps| - 1];
    if h == |ps| - 1 {
      NoneOpen(front);
    } else {
      OnlyOpen(front, h);
    }
  }

  function Closed(p: Page): Page
  {
    p.(closed := true)
  }

  /** `ps` with the pages at the handles `hs` closed and every other page as it was. */
  function CloseAll(ps: seq<Page>, hs: seq<nat>): (qs: seq<Page>)
    ensures |qs| == |ps|
    ensures forall h :: 0 <= h < |ps| ==> qs[h] == if h in hs then Closed(ps[h]) else ps[h]
  {
    seq(|ps|, h requires 0 <= h < |ps| => if h in hs then Closed(ps[h]) else ps[h])
  }

  /** Closing no page changes nothing. */
  lemma CloseNone(ps: seq<Page>)
    ensures CloseAll(ps, []) == ps
  {
  }

  /** Closing one more page. */
  lemma CloseAllStep(ps: seq<Page>, hs: seq<nat>, x: nat)
    requires x < |ps|
    ensures CloseAll(ps, hs + [x]) == CloseAll(ps, hs)[x := Closed(CloseAll(ps, hs)[x])]
  {
    var left, right := CloseAll(ps, hs + [x]), CloseAll(ps, hs)[x := Closed(CloseAll(ps, hs)[x])];
    forall h | 0 <= h < |ps|
      ensures left[h] == right[h]
    {
      assert h in hs + [x] <==> h in hs || h == x;
    }
  }

  /** Closing every listed page but the first leaves the first as the only one listed. */
  lemma AllButFirstClosed(ps: seq<Page>)
    requires OpenIn(ps) != []
    ensures OpenIn(CloseAll(ps, OpenIn(ps)[1..])) == [OpenIn(ps)[0]]
    ensures CloseAll(ps, OpenIn(ps)[1..])[OpenIn(ps)[0]] == ps[OpenIn(ps)[0]]
  {
    var open := OpenIn(ps);
    OpenInSpec(ps);
    var qs := CloseAll(ps, open[1..]);
    forall k | 0 <= k < |qs| && !qs[k].closed
      ensures k == open[0]
    {
      assert k !in open[1..] && !ps[k].closed;
      assert k in open;
    }
    forall j | 1 <= j < |open|
      ensures open[j] != open[0]
    {
    }
    assert open[0] !in open[1..];
    OnlyOpen(qs, open[0]);
  }

  /** The list of a context with two pages. */
  lemma OpenInTwo(p: Page, q: Page)
    ensures OpenIn([p, q]) == (if p.closed then [] else [0]) + (if q.closed then [] else [1])
  {
    assert [p, q][..1] == [p] && [p][..0] == [];
    assert OpenIn([p]) == (if p.closed then [] else [0]);
  }

  /** The page-handling half of `BasePage`. */
  class BasePage {
    /** Every page the context has created, in creation order. */
    var pages: seq<Page>
    /** `this.page`: the handle of the page the façade drives. */
    var active: nat

    ghost predicate Valid()
      reads this
    {
      active < |pages|
    }

    /** `new BasePage(page)` on a fresh context whose only page is `page`. */
    constructor (title: string, url: string)
      ensures Valid() && pages == [Page(title, url, false)] && active == 0
    {
      pages := [Page(title, url, false)];
      active := 0;
    }

    /** `getAllPages`. */
    function OpenPages(): seq<nat>
      reads this
    {
      OpenIn(pages)
    }

    /** `getCurrentUrl`. */
    function CurrentUrl(): string
      reads this
      requires Valid()
    {
      pages[active].url
    }

    /**
     * `navigateTo`: `answer` is how the engine's `goto` ends. A failed navigation is only
     * logged, so the call never fails, and the page is left wherever the engine left it.
     * On a closed page `goto` throws at once and nothing changes. `url` and the options
     * (`ResolveNavigation(o, DomContentLoaded)`) are what the engine is asked; they shape
     * only its `answer`, which carries the final URL.
     */
    method NavigateTo(url: string, o: NavigationOptions, answer: Landing) returns (r: Outcome<PageError>)
      requires Valid()
      modifies this
      ensures r == Pass
      ensures Valid() && active == old(active) && |pages| == |old(pages)|
      ensures old(pages[active].closed) ==> pages == old(pages)
      ensures !old(pages[active].closed) ==> pages == old(pages)[active := Landed(answer)]
      ensures !old(pages[active].closed) ==> CurrentUrl() == answer.url && pages[active].title == answer.title
      ensures answer.url == old(CurrentUrl()) && answer.title == old(pages[active].title) ==> pages == old(pages)
    {
      if !pages[active].closed {
        pages := pages[active := Landed(answer)];
      }
      r := Pass;
    }

    /**
     * `openInNewTab`: the context creates a page, which is listed last and stays open
     * whatever the navigation does; it holds what the engine's `goto` left in it. The
     * call fails exactly when that navigation fails. The active page does not change.
     * The options (`ResolveNavigation(o, NetworkIdle)`) shape only the engine's `answer`;
     * the requested `url` appears only in the error.
     */
    method OpenInNewTab(url: string, o: NavigationOptions, answer: Landing) returns (r: Result<nat, PageError>)
      requires Valid()
      modifies this
      ensures Valid() && active == old(active)
      ensures |pages| == |old(pages)| + 1 && pages[..|old(pages)|] == old(pages)
      ensures OpenPages() == old(OpenPages()) + [|old(pages)|]
      ensures pages[|old(pages)|] == Page(answer.title, answer.url, false)
      ensures answer.Loaded? ==> r == Ok(|old(pages)|)
      ensures answer.Stranded? ==> r == Err(OpenFailed(url))
    {
      var created := Landed(answer);
      OpenInAppend(pages, created);
      var h := |pages|;
      pages := pages + [created];
      if answer.Loaded? {
        r := Ok(h);
      } else {
        r := Err(OpenFailed(url));
      }
    }

    /** `openInNewTabAndSwitch`: as `openInNewTab`, and the new page becomes active when it loads. */
    method OpenInNewTabAndSwitch(url: string, o: NavigationOptions, answer: Landing) returns (r: Result<nat, PageError>)
      requires Valid()
      modifies this
      ensures Valid()
      ensures |pages| == |old(pages)| + 1 && pages[..|old(pages)|] == old(pages)
      ensures OpenPages() == old(OpenPages()) + [|old(pages)|]
      ensures pages[|old(pages)|] == Page(answer.title, answer.url, false)
      ensures answer.Loaded? ==> r == Ok(|old(pages)|) && active == |old(pages)|
      ensures answer.Stranded? ==> r == Err(OpenAndSwitchFailed(url, OpenFailed(url))) && active == old(active)
    {
      var created := OpenInNewTab(url, o, answer);
      match created
      case Ok(h) =>
        active := h;
        r := Ok(h);
      case Err(e) =>
        r := Err(OpenAndSwitchFailed(url, e));
    }

    /** `switchToPage`: an index into the listed pages; out of range, an error naming the count and no switch. */
    method SwitchToPage(index: int) returns (r: Result<nat, PageError>)
      requires Valid()
      modifies this
      ensures Valid() && pages == old(pages)
      ensures 0 <= index < |old(OpenPages())| ==>
        r == Ok(old(OpenPages())[index]) && active == old(OpenPages())[index]
      ensures !(0 <= index < |old(OpenPages())|) ==>
        r == Err(IndexOutOfRange(index, |old(OpenPages())|)) && active == old(active)
    {
      var open := OpenPages();
      if index < 0 || index >= |open| {
        return Err(IndexOutOfRange(index, |open|));
      }
      active := open[index];
      r := Ok(active);
    }

    /**
     * `switchToPageByName`: the first listed page whose title contains `key`; none, an
     * error naming the count and no switch.
     */
    method SwitchToPageByName(key: string) returns (r: Result<nat, PageError>)
      requires Valid()
      modifies this
      ensures Valid() && pages == old(pages)
      ensures r.Ok? ==> (r.value in old(OpenPages()) && active == r.value
        && Strings.Includes(pages[r.value].title, key)
        && forall h :: h in old(OpenPages()) && h < r.value ==> !Strings.Includes(pages[h].title, key))
      ensures r.Err? <==> forall h :: h in old(OpenPages()) ==> !Strings.Includes(pages[h].title, key)
      ensures r.Err? ==> r.error == NoTitleMatch(key, |old(OpenPages())|) && active == old(active)
    {
      var open := OpenPages();
      OpenInSpec(pages);
      var k := 0;
      while k < |open|
        invariant 0 <= k <= |open| && pages == old(pages) && active == old(active)
        invariant forall j :: 0 <= j < k ==> !Strings.Includes(pages[open[j]].title, key)
      {
        if Strings.Includes(pages[open[k]].title, key) {
          active := open[k];
          return Ok(open[k]);
        }
        k := k + 1;
      }
      r := Err(NoTitleMatch(key, |open|));
    }

    /**
     * `switchToPageByUrl`: the first listed page whose URL contains the string or satisfies
     * the regular expression; none, an error naming the pattern (not the count) and no switch.
     */
    method SwitchToPageByUrl(p: UrlPattern) returns (r: Result<nat, PageError>)
      requires Valid()
      modifies this
      ensures Valid() && pages == old(pages)
      ensures r.Ok? ==> (r.value in old(OpenPages()) && active == r.value
        && UrlMatches(p, pages[r.value].url)
        && forall h :: h in old(OpenPages()) && h < r.value ==> !UrlMatches(p, pages[h].url))
      ensures r.Err? <==> forall h :: h in old(OpenPages()) ==> !UrlMatches(p, pages[h].url)
      ensures r.Err? ==> r.error == NoUrlMatch(PatternText(p)) && active == old(active)
    {
      var open := OpenPages();
      OpenInSpec(pages);
      var k := 0;
      while k < |open|
        invariant 0 <= k <= |open| && pages == old(pages) && active == old(active)
        invariant forall j :: 0 <= j < k ==> !UrlMatches(p, pages[open[j]].url)
      {
        if UrlMatches(p, pages[open[k]].url) {
          active := open[k];
          return Ok(open[k]);
        }
        k := k + 1;
      }
      r := Err(NoUrlMatch(PatternText(p)));
    }

    /**
     * `closePage`: closes the listed page at `index` and nothing else. If it is the
     * active page and `switchToMain` is not `false`, the first listed page becomes active
     * first, which for index 0 is the page being closed.
     */
    method ClosePage(index: int, switchToMain: Option<bool>) returns (r: Outcome<PageError>)
      requires Valid()
      modifies this
      ensures Valid()
      ensures !(0 <= index < |old(OpenPages())|) ==>
        r == Fail(IndexOutOfRange(index, |old(OpenPages())|)) && pages == old(pages) && active == old(active)
      ensures 0 <= index < |old(OpenPages())| ==>
        var target := old(OpenPages())[index];
        r == Pass
        && pages == old(pages)[target := Closed(old(pages)[target])]
        && active == (if target == old(active) && switchToMain != Some(false) then old(OpenPages())[0] else old(active))
      ensures r.Pass? && index == 0 && old(OpenPages())[0] == old(active) ==> pages[active].closed
    {
      var open := OpenPages();
      if index < 0 || index >= |open| {
        return Fail(IndexOutOfRange(index, |open|));
      }
      var target := open[index];
      if target == active && switchToMain != Some(false) {
        var _ := SwitchToPage(0);
      }
      pages := pages[target := Closed(pages[target])];
      r := Pass;
    }

    /**
     * `closePage` as evidently intended: the page is closed first and, when it was the
     * active one and `switchToMain` is not `false`, the first page still listed becomes
     * active, so the façade is never left on the page it has just closed while another is open.
     */
    method ClosePageRepointing(index: int, switchToMain: Option<bool>) returns (r: Outcome<PageError>)
      requires Valid()
      modifies this
      ensures Valid()
      ensures !(0 <= index < |old(OpenPages())|) ==>
        r == Fail(IndexOutOfRange(index, |old(OpenPages())|)) && pages == old(pages) && active == old(active)
      ensures 0 <= index < |old(OpenPages())| ==>
        var target := old(OpenPages())[index];
        r == Pass
        && pages == old(pages)[target := Closed(old(pages)[target])]
        && active == (if target == old(active) && switchToMain != Some(false) && OpenPages() != []
                      then OpenPages()[0] else old(active))
      ensures (r.Pass? && old(OpenPages())[index] == old(active) && switchToMain != Some(false)
               && |old(OpenPages())| >= 2) ==> !pages[active].closed
    {
      var open := OpenPages();
      if index < 0 || index >= |open| {
        return Fail(IndexOutOfRange(index, |open|));
      }
      OpenInSpec(pages);
      var target := open[index];
      var other := if open[0] != target then open[0] else open[|open| - 1];
      if |open| >= 2 {
        assert open[0] < open[|open| - 1];
      }
      pages := pages[target := Closed(pages[target])];
      var left := OpenPages();
      OpenInSpec(pages);
      if |open| >= 2 {
        assert other != target && !pages[other].closed;
        assert other in left;
      }
      if target == active && switchToMain != Some(false) && left != [] {
        active := left[0];
      }
      r := Pass;
    }

    /**
     * `closeAllPagesExceptMain`: closes every listed page but the first, which becomes
     * active and is then the only open page.
     */
    method CloseAllPagesExceptMain()
      requires Valid()
      modifies this
      ensures Valid()
      ensures old(OpenPages()) == [] ==> pages == old(pages) && active == old(active) && OpenPages() == []
      ensures old(OpenPages()) != [] ==>
        pages == CloseAll(old(pages), old(OpenPages())[1..])
        && active == old(OpenPages())[0] && OpenPages() == [active]
        && pages[active] == old(pages)[active]
    {
      var open := OpenPages();
      if |open| == 0 {
        OpenInSpec(pages);
        NoneOpen(pages);
        return;
      }
      var qs := pages;
      CloseNone(pages);
      assert open[1..1] == [];
      var i := 1;
      while i < |open|
        invariant 1 <= i <= |open| && pages == old(pages)
        invariant qs == CloseAll(pages, open[1..i])
      {
        assert open[1..i + 1] == open[1..i] + [open[i]];
        CloseAllStep(pages, open[1..i], open[i]);
        qs := qs[open[i] := Closed(qs[open[i]])];
        i := i + 1;
      }
      assert open[1..i] == open[1..];
      AllButFirstClosed(pages);
      pages := qs;
      active := open[0];
    }
  }

  /**
   * Opening a page, switching to it and closing all but the main page returns the façade
   * to the page it started on, unchanged, which is then the only one open; this holds
   * whether or not the new page loads.
   */
  method OpenSwitchAndReturn(b: BasePage, url: string, answer: Landing) returns (r: Result<nat, PageError>)
    requires b.Valid() && b.OpenPages() != []
    modifies b
    ensures b.Valid()
    ensures answer.Loaded? ==> r == Ok(|old(b.pages)|)
    ensures answer.Stranded? ==> r == Err(OpenAndSwitchFailed(url, OpenFailed(url)))
    ensures b.active == old(b.OpenPages())[0] && b.OpenPages() == [b.active]
    ensures b.pages[b.active] == old(b.pages[b.OpenPages()[0]])
  {
    ghost var main := b.OpenPages()[0];
    ghost var before := b.pages;
    OpenInSpec(b.pages);
    r := b.OpenInNewTabAndSwitch(url, NoNavigationOptions, answer);
    assert b.OpenPages()[0] == main;
    assert b.pages[main] == b.pages[..|before|][main] == before[main];
    b.CloseAllPagesExceptMain();
  }

  /**
   * `closePage(0)` as written, called while the main page is active with a second page
   * open: one page is left open, and the façade drives the closed one.
   */
  method ClosingActiveMainPage() returns (activeClosed: bool, openLeft: nat)
    ensures activeClosed && openLeft == 1
  {
    var b := new BasePage("Main", "https://example.com/");
    var _ := b.OpenInNewTab("https://example.com/second", NoNavigationOptions, Loaded("Second", "https://example.com/second"));
    assert |b.pages| == 2 && !b.pages[0].closed && !b.pages[1].closed && b.active == 0;
    assert b.pages == [b.pages[0], b.pages[1]];
    OpenInTwo(b.pages[0], b.pages[1]);
    assert b.OpenPages() == [0, 1];
    var r := b.ClosePage(0, None);
    assert |b.pages| == 2 && b.pages[0].closed && !b.pages[1].closed && b.active == 0;
    assert b.pages == [b.pages[0], b.pages[1]];
    OpenInTwo(b.pages[0], b.pages[1]);
    activeClosed := b.pages[b.active].closed;
    openLeft := |b.OpenPages()|;
  }

  /** The same calls with the repointing `closePage`: the façade moves to the page left open. */
  method ClosingActiveMainPageRepointed() returns (activeClosed: bool, openLeft: nat, active: nat)
    ensures !activeClosed && openLeft == 1 && active == 1
  {
    var b := new BasePage("Main", "https://example.com/");
    var _ := b.OpenInNewTab("https://example.com/second", NoNavigationOptions, Loaded("Second", "https://example.com/second"));
    var r := b.ClosePageRepointing(0, None);
    activeClosed := b.pages[b.active].closed;
    openLeft := |b.OpenPages()|;
    active := b.active;
  }
}

=== FILE: wrappers.dfy ===
/** Option, Outcome and Result, and JavaScript's nullish-coalescing operator. */
module Wrappers {

  /** An optional value: `None` stands for `undefined` or `null`. */
  datatype Option<+T> = None | Some(value: T)

  /** The outcome of an operation that returns nothing: it completes or throws. */
  datatype Outcome<+E> = Pass | Fail(error: E)

  /** The outcome of an operation that returns a value or throws. */
  datatype Result<+T, +E> = Ok(value: T) | Err(error: E)

  /** `o ?? fallback`: an explicit value wins, even a falsy one such as `0` or `false`. */
  function OrElse<T>(o: Option<T>, fallback: T): T
  {
    match o
    case Some(v) => v
    case None => fallback
  }

  /** JavaScript truthiness of an optional string: present and non-empty. */
  predicate Truthy(o: Option<string>)
  {
    o.Some? && o.value != ""
  }
}
